=== FILE: README.md ===
# Denon receiver remote: protocol engine model

`remoto.py` is a command-line remote control for Denon A/V receivers. It
speaks the receiver's line-oriented text protocol over TCP:
- every command and status query is a short code ended by a carriage
  return (`PW?`, `MV35`, `SIBT`);
- every reply is one or more such lines.

The `Denon` class holds the protocol engine. This project models that
engine in Dafny and proves what it does.

- **Tables** (`Protocol`). These are remoto.py's constant tables as maps:
  - action name to wire code;
  - category to status query;
  - input and sound-mode display names;
  - output labels;
  - the four error messages.
- **Reply splitter** (`Splitter`). `split` right-strips a reply and cuts it
  at carriage returns. With several fragments it reports the first that
  is a known code, and otherwise the first fragment.
- **Transport** (`Transport`). The socket is replaced by a scripted link:
  - a queue of replies, each a text or a failure;
  - a queue of send outcomes;
  - a log of the lines sent.

  A read past the end of the reply script fails, as the socket's
  five-second timeout does. A send past the end of its script succeeds.
  `Transport.Socket` is a class whose `Send` and `Recv` methods update
  that state in place.
- **Status poller** (`Poller`). `recv_status` is a method with
  remoto.py's `while` loop. It re-sends the status query until the raw reply
  has the query's two-letter prefix and is not the `MVMAX` volume-limit
  advisory, then splits the reply. Any failed send or read gives the
  receive error. It also has a receive-only mode that reads once.
- **Dispatcher** (`Dispatcher`). `send_command` is a method that follows
  remoto.py step by step:
  1. query the category's status;
  2. stop when the action is `status`, the receiver already reports the
     command, or the query failed;
  3. check that the receiver is on (power commands skip this);
  4. resolve `toggle` against the current state;
  5. send the command once and query the status again.
- **Command vocabulary** (`Vocabulary`). `parse_command` turns a category
  and action into a wire code. It uses the table entry when there is one.
  Otherwise it uses the category prefix and the action read as a number,
  padded to two digits.
- **Output formatting** (`Formatter`). `parse_response` does these steps:
  - exits with status 1 on an error reply;
  - drops the two-letter prefix;
  - turns volume readings into numbers (`455` becomes `45.5`);
  - renames inputs and sound modes;
  - labels a `STANDBY` value as a power state.
- **Address check** (`Address`). `validate_ip` accepts four dot-separated
  decimal parts, each at most 255.
- **Scenarios** (`Scenarios`). These are whole runs against scripted
  receivers: `volume 35`, `power toggle` on a receiver that is on, and
  `mute toggle` on a receiver in standby.

Each method (`RecvStatus`, `SendCommand`, `ParseCommand`, `ValidateIp`) is
proved equal to a function of the link state (`Poll`, `Dispatch`,
`Execute`) or to a predicate (`ValidAddress`). The lemmas about those
functions carry the properties.

Some behaviours of remoto.py are easy to misread. The model follows the
code:
- The poll loop tests the raw reply, not its split (remoto.py:217). A reply
  `SIXYZ\rPWON` ends an input-category poll and reports `PWON`
  (`Poller.PollForeignPrefix`).
- The splitter falls back to the first fragment even when that is the
  volume-limit advisory (remoto.py:231-236): with fragments `MVMAX 90` and
  `MV45` it returns `MVMAX 90`, because neither fragment is a known code
  (`Splitter.SplitAdvisoryFallback`). A poll never reports it, though.
  The loop rejects any raw reply that begins with `MVMAX` before it is
  split (remoto.py:217). A line that is not a known code begins the raw
  reply (`Splitter.SplitLeads`), so the reported line never begins with
  `MVMAX` (`Poller.PollNeverAdvisory`). The advisory fallback can only
  show up in receive-only mode, which no modelled path uses. The
  first-fragment fallback itself does occur in polls: a volume poll
  answered by `MV45\rMVMAX 90` reports `MV45`. For the same reason, a
  poll reports the receive error, a known code, or a line with the query's
  prefix (`Poller.PollPrefix`).
- After a command is sent, the dispatcher polls the status again with the
  query loop (remoto.py:271). It does not use a single receive-only read.

Splitting a result again changes it exactly when the result ends in
whitespace (`Splitter.SplitTwiceIff`). Single-fragment replies, and replies
whose result is a known code, are therefore fixed points
(`Splitter.SplitFixedPoint`). `Splitter.SplitNotIdempotent` shows a reply
where applying the splitter twice differs from applying it once.

## Model

| member | source | states |
|---|---|---|
| Text.Prefix | remoto.py:217 | `s[:n]` never fails: the result is the first `min(n, len(s))` characters |
| Text.Drop | remoto.py:306 | `s[2:]` is empty on short text, and it rebuilds the text when appended to the prefix |
| Text.RStrip | remoto.py:231 | `rstrip()` keeps a prefix that ends in a non-space, and everything it removes is whitespace |
| Text.SplitOn | remoto.py:231 | `split('\r')` gives at least one part and no part holds the separator. Joining the parts with the separator gives the input back |
| Text.SplitOnJoin | remoto.py:231 | splitting the join of separator-free parts gives the same parts back |
| Text.JoinHead | remoto.py:231-236 | the first part begins the joined text, and with more parts the separator follows it |
| Text.NatToString | remoto.py:311 | `str(n)` is a string of digits that reads back as n, and it is one character exactly when n < 10 |
| Text.NatToStringParseNat | remoto.py:308-311 | `str(int(s)) == s` for digit text without a leading zero |
| Text.PyIntStrips | remoto.py:308-309 | `int()` ignores surrounding whitespace and reads an optional sign and digits. Digit text is its decimal value |
| Text.PyIntRejectsLetter | remoto.py:285-286 | `int()` raises on text that starts with a letter |
| Text.Lower | remoto.py:319 | `lower()` lower-cases each letter and keeps the length |
| Text.Capitalize | remoto.py:319 | `capitalize()` upper-cases the first character and lower-cases the rest |
| Text.Strip | remoto.py:309 | `strip()`: removes whitespace at both ends. It has no contract of its own; `Text.PyIntStrips` uses it |
| Text.SignedValue | remoto.py:309 | the value of stripped text with an optional sign and at least one digit, and None for anything else. `Text.PyIntStrips` states it |
| Text.PyInt | remoto.py:286 | `int()` on base-10 text, with None where it raises. `Text.PyIntStrips` and `Text.PyIntRejectsLetter` carry its contract |
| Text.IntToString | remoto.py:309 | `str(i)` for any integer: a sign for negative numbers, then the digits of `Text.NatToString` |
| Protocol.StatusQuery | remoto.py:72-76 | every category's status query has a two-letter prefix and `?`. Only power's is `PW?` and only mute's is `MU?` |
| Protocol.Label | remoto.py:100-104 | every category has an output label from the table |
| Protocol.CategoryKeys | remoto.py:72-76 | the status-query and label tables cover all five categories |
| Protocol.CodeValuesListed | remoto.py:44-69 | the values of the code table are exactly the sentinel, power, volume, mute, input and sound-mode codes |
| Protocol.CodeValuesClean | remoto.py:44-69 | no code holds a carriage return, is empty or ends in whitespace |
| Protocol.ToggleCodesKnown | remoto.py:46-51 | the four codes used for toggling are table values |
| Protocol.ToggleCodeLookups | remoto.py:263-267 | `on`, `off`, `mute` and `unmute` map to `PWON`, `PWSTANDBY`, `MUON` and `MUOFF` |
| Protocol.NotACode | remoto.py:44-69 | text outside every code group is not a known code |
| Protocol.ErrorValuesListed | remoto.py:107-110 | the error table's values are exactly the four messages |
| Protocol.NotAnError | remoto.py:302 | a reply whose third character is not `r` is never taken for an error message |
| Protocol.StatusQueriesListed | remoto.py:72-76 | the status queries are exactly `PW?`, `MV?`, `MU?`, `SI?` and `MS?` |
| Protocol.QueriesEndInMark | remoto.py:72-76 | every status query has three characters and ends in `?` |
| Protocol.CodeValuesNotQueries | remoto.py:44-76 | no value of the code table is a status query |
| Protocol.QueryLetters | remoto.py:72-76 | every status query begins with two capital letters |
| Protocol.CodeValuesNotAdvisory | remoto.py:44-69 | no value of the code table begins with `MVMAX` |
| Protocol.NotAdvisory | remoto.py:217 | text that does not begin with `MVM` does not begin with `MVMAX` |
| Splitter.Fragments | remoto.py:231 | a reply has at least one fragment, and no fragment holds a carriage return |
| Splitter.FirstKnown | remoto.py:232-235 | the index of the first known code among the fragments, or the count when there is none |
| Splitter.Split | remoto.py:229-236 | `split`. It has no ensures of its own; `Splitter.SplitIsFragment`, `Splitter.SplitSelects` and the lemmas below carry its contract |
| Splitter.SplitIsFragment | remoto.py:229-236 | the reported line is one of the fragments, so it has no carriage return |
| Splitter.SplitSelects | remoto.py:229-236 | a single fragment is returned as it is. Among several, the first known code is returned, and the first fragment when there is no known code |
| Splitter.SplitKeepsClean | remoto.py:229-236 | text with no carriage return and no trailing whitespace is returned unchanged |
| Splitter.SplitLeads | remoto.py:231-236 | a reported line that is not a known code is the first fragment, so it begins the raw reply |
| Splitter.SplitKeepsLead | remoto.py:231-236 | when the reply's first n characters hold no carriage return and the n-th is not whitespace, a reported line that is not a known code begins with them |
| Splitter.SplitFixedPoint | remoto.py:229-236 | a single-fragment reply, or one whose result is a known code, is a fixed point: splitting the result again changes nothing |
| Splitter.SplitTwiceIff | remoto.py:229-236 | splitting a result again leaves it unchanged exactly when it is empty or ends in a non-space |
| Splitter.SplitStripsTrailing | remoto.py:231 | text without carriage returns that ends in whitespace is split to its right-stripped, shorter form |
| Splitter.SplitLine | remoto.py:229-236 | a clean line ended by a carriage return is reported without the carriage return |
| Splitter.SplitTwoLines | remoto.py:231-236 | with two fragments and an unknown first one, the second is reported exactly when it is a known code |
| Splitter.SplitNotIdempotent | remoto.py:229-236 | a first fragment with a trailing blank is returned with the blank, and splitting it again strips the blank |
| Splitter.SplitAdvisoryFallback | remoto.py:232-236 | `MVMAX 90\rMV45` is reported as `MVMAX 90` |
| Splitter.SplitFindsConfirmation | remoto.py:232-235 | a toggle confirmation behind an unknown line is found |
| Splitter.SplitForeignCode | remoto.py:232-235 | `SIXYZ\rPWON` is reported as `PWON` |
| Transport.SendStep | remoto.py:201-209 | a send succeeds unless its scripted outcome is a failure. It consumes one scripted outcome, logs the line only on success and leaves the replies untouched |
| Transport.RecvStep | remoto.py:219 | a read returns the next scripted text. It fails on a scripted failure or an exhausted script, and never writes to the log |
| Transport.Socket.Send | remoto.py:201-209 | the socket's send advances its state as `SendStep` does |
| Transport.Socket.Recv | remoto.py:219 | the socket's read advances its state as `RecvStep` does |
| Poller.ReceiveOnce | remoto.py:220-226 | receive-only mode reads once, sends nothing and leaves the send-outcome script as it is. It returns the split of the text read, or the receive error |
| Poller.Accepts | remoto.py:217 | the loop test: the raw reply has the query's first two characters and does not start with `MVMAX`. `Poller.AcceptsReply` states it |
| Poller.PollFrom | remoto.py:217-219 | the loop from a current raw reply: the accepted raw reply, or None on a failed send or read. `Poller.PollFromOutcome` and the `PollFrom*` lemmas carry its contract |
| Poller.Poll | remoto.py:212-226 | polling mode from the empty reply: the split of the accepted reply, or the receive error. `Poller.PollOutcome` carries its contract |
| Poller.RecvStatus | remoto.py:212-226 | the loop leaves the reply and the socket state that `Poll` (or `ReceiveOnce`) gives for the starting state |
| Poller.PollFromConsumes | remoto.py:217-219 | the loop consumes a prefix of the reply script |
| Poller.PollFromStep | remoto.py:217-219 | one turn of the loop: a rejected reply, a successful send and a readable reply continue the loop from that reply, with the query logged |
| Poller.PollFromStops | remoto.py:217-226 | a rejected reply followed by a failed send or an unreadable reply ends the loop in failure |
| Poller.PollFromSendOk | remoto.py:217-218 | the loop consumes a prefix of the send-outcome script |
| Poller.PollKeepsSendsSucceed | remoto.py:217-218 | when every scripted send succeeds, the sends left after a poll still all succeed |
| Poller.PollFromSends | remoto.py:217-219 | the loop sends only the query, at least once for each reply it consumes |
| Poller.PollFromRejects | remoto.py:217 | every consumed reply except the last was readable and was rejected by the loop test |
| Poller.PollFromOutcome | remoto.py:217-219 | the loop ends in failure, or with an accepted raw reply, which is the last one read |
| Poller.EndedBy | remoto.py:217-219 | how the loop can end: in failure, on its starting reply with nothing read, or on the last reply read, accepted in both cases. `Poller.PollFromOutcome` states it of the loop |
| Poller.EndedByShift | remoto.py:217-219 | when the first reply was read and the rest of the loop ended as `EndedBy` says, the whole loop did too |
| Poller.EndedByReports | remoto.py:217-226 | a loop that started from a rejected reply reports the receive error or the split of the last reply read |
| Poller.ReportsLastRead | remoto.py:217-226 | the reported line is the receive error or the split of the last reply read, which the loop accepted. `Poller.PollResult` states it of a poll |
| Poller.PollFromStarted | remoto.py:217-226 | from a rejected start the result is the receive error, or the split of the last reply read, which the loop test accepted |
| Poller.PollOutcome | remoto.py:212-226 | one poll consumes k replies and sends the query at least k times and nothing else. The first k-1 replies are rejected. The result is the receive error, or the split of the k-th reply, which the test accepted |
| Poller.PollShape | remoto.py:214-219 | the replies consumed, the query-only log and the rejected replies of one poll |
| Poller.PollFromShape | remoto.py:217-219 | the same for the loop from any reply |
| Poller.PollResult | remoto.py:217-226 | a poll returns the receive error, or the split of an accepted reply it read (at least one read happens) |
| Poller.PollFromScript | remoto.py:217-219 | when sends succeed and the first j replies are rejected, the loop stops at reply j. It sends the query j+1 times |
| Poller.PollFromScriptFirst | remoto.py:217-219 | the last turn of a scripted loop: one more query, then the accepted reply or a failure |
| Poller.PollScript | remoto.py:212-226 | the same from the start of a poll: the split of reply j when it is readable, otherwise the receive error |
| Poller.AcceptsReply | remoto.py:217 | a reply with the query's two letters that is not `MVMAX` ends the loop |
| Poller.PollFirstReply | remoto.py:214-225 | an accepted first reply ends the poll after one query |
| Poller.PollSendFails | remoto.py:218-226 | a failure of the poll's first send gives the receive error, with no read and nothing logged |
| Poller.PollFromFailsAt | remoto.py:217-226 | when the first j sends succeed, the first j replies are rejected and send j fails, the loop fails after consuming j replies and sending the query j times |
| Poller.PollFailsAt | remoto.py:212-226 | a send that fails after any number of rejected replies gives the receive error, with the j replies consumed and the query sent j times |
| Poller.PollForeignPrefix | remoto.py:217-225 | a source query answered by `SIXYZ\rPWON` returns `PWON`, whose prefix is not the query's |
| Poller.AcceptedNotAdvisory | remoto.py:217-236 | an accepted raw reply never splits to a line that begins with `MVMAX` |
| Poller.PollNeverAdvisory | remoto.py:212-236 | a poll never reports the volume-limit advisory |
| Poller.AcceptedKeepsPrefix | remoto.py:217-236 | an accepted raw reply splits to a known code or to a line with the query's two-letter prefix |
| Poller.PollKeepsPrefix | remoto.py:212-236 | for a query that begins with two letters, a poll reports the receive error, a known code, or a line with the query's prefix |
| Poller.PollPrefix | remoto.py:212-236 | a category's poll reports the receive error, a known code, or a line with the prefix of the category's status query |
| Dispatcher.Toggle | remoto.py:239-243 | the result is one of the two codes. For distinct codes it is the second exactly when the state equals the first |
| Dispatcher.ToggleTwice | remoto.py:239-243 | for a state that is one of two distinct codes, toggling changes it and toggling twice restores it |
| Dispatcher.QueryKinds | remoto.py:252-261 | among the five status queries, the `PW` test picks out power alone and the `MU` test picks out mute alone |
| Dispatcher.Resolve | remoto.py:263-267 | a power toggle becomes `PWSTANDBY` exactly when the reply is `PWON`, and `PWON` otherwise. The same holds for mute with `MUOFF` and `MUON`. Any other command is sent as it is |
| Dispatcher.SendCommand | remoto.py:246-276 | the method leaves the result and socket state that `Dispatch` gives for the starting state |
| Dispatcher.ShortCircuits | remoto.py:249 | the early exit: the action is `status`, equals the first reply, or the query failed. `Dispatcher.DispatchShortCircuit` uses it |
| Dispatcher.PowerState | remoto.py:252-261 | the power reply the send depends on: the first reply for power, otherwise a `PW?` poll. `Dispatcher.ProceedPower` and `Dispatcher.ProceedOn` state it |
| Dispatcher.Dispatch | remoto.py:246-276 | `send_command` as a function of the link state. `Dispatcher.DispatchShortCircuit`, `DispatchBlocked`, `DispatchSends` and `DispatchAtMostOnce` carry its contract |
| Dispatcher.Proceed | remoto.py:252-275 | the steps after the first reply: the power check, then confirmation or the power reply. `Dispatcher.ProceedPower`, `ProceedOn` and `ProceedBlocked` state it |
| Dispatcher.Confirm | remoto.py:269-273 | send the command, then poll again on success or give the send error. `Dispatcher.ConfirmOutcome` states it |
| Dispatcher.Imperatives | remoto.py:72-76 | the lines of a send log that are not status queries (the values of `scodes`): every such line is kept, and nothing else |
| Dispatcher.PollSendsNoImperative | remoto.py:214-219 | a status poll sends no command |
| Dispatcher.DispatchShortCircuit | remoto.py:247-249 | for `status`, a command equal to the reply, or a failed query, the result is the first poll. Nothing but the query is sent |
| Dispatcher.DispatchContinues | remoto.py:248-249 | otherwise the dispatch continues from the state after the first poll |
| Dispatcher.DispatchBlocked | remoto.py:258-275 | another category on a receiver whose power reply is not `PWON` returns that power reply and sends no command |
| Dispatcher.DispatchSends | remoto.py:252-273 | a command that passes both checks is sent once. A failed send gives the send error; a successful one gives a fresh poll of the same query |
| Dispatcher.DispatchReachesConfirm | remoto.py:249-270 | past both checks, the dispatch is the confirmation of the resolved command, and no imperative has been sent before it |
| Dispatcher.ConfirmOutcome | remoto.py:269-273 | a confirmation sends the command once, then gives a fresh status poll on success or the send error on failure |
| Dispatcher.DispatchAtMostOnce | remoto.py:246-276 | whatever the replies, a dispatch sends at most one command, and that command is the resolved one |
| Dispatcher.DispatchDelivers | remoto.py:269-273 | when every send succeeds, a command that passes both checks is delivered |
| Dispatcher.ProceedPower | remoto.py:252-255 | the power category skips the power check |
| Dispatcher.ProceedOn | remoto.py:258-270 | past a `PWON` power reply, the resolved command is sent and confirmed |
| Dispatcher.ProceedBlocked | remoto.py:274-275 | past any other power reply, that reply is the result |
| Dispatcher.ConfirmRun | remoto.py:269-273 | a scripted confirmation sends the command and the query, and returns the accepted reply |
| Dispatcher.DispatchRunPower | remoto.py:252-273 | a power run after the first reply sends the resolved command and the query |
| Dispatcher.DispatchRunOn | remoto.py:256-273 | another category on a receiver that is on: after the power query, the command and the query go out |
| Dispatcher.DispatchRunBlocked | remoto.py:256-275 | another category on a receiver that is not on: only the power query goes out, and the power reply is the result |
| Dispatcher.DispatchScriptPower | remoto.py:246-276 | a two-reply power script: the log gains the query, the resolved command and the query, and the result is the second reply split |
| Dispatcher.DispatchScriptOn | remoto.py:246-276 | a three-reply script for another category: the log gains the query, `PW?`, the resolved command and the query |
| Dispatcher.DispatchScriptBlocked | remoto.py:246-276 | a two-reply script for another category in standby: the log gains the query and `PW?` only |
| Vocabulary.Pad2 | remoto.py:285 | `'{:02}'` gives two digits for 0..99 that read back as the number. A number of two or more digits is written as `str` writes it (`123` gives `123`), and a negative number gets a sign |
| Vocabulary.CommandCode | remoto.py:284-294 | a table key maps to its value. Any other action has a code exactly when `int()` accepts it |
| Vocabulary.Execute | remoto.py:279-294 | a rejected action changes nothing. Otherwise the label is the category's label |
| Vocabulary.ParseCommand | remoto.py:279-294 | the method leaves the result and socket state that `Execute` gives for the starting state |
| Vocabulary.CodeKeysNotNumeric | remoto.py:44-69 | no table key starts with a digit |
| Vocabulary.VolumeLevelCode | remoto.py:284-290 | every level 0..90 is an accepted action and becomes `MV` plus two digits that read back as the level |
| Vocabulary.VolumeCodeSeven | remoto.py:284-286 | `7` becomes `MV07` |
| Vocabulary.TableActionsCoded | remoto.py:291-294 | every accepted power, mute and sound-mode action is a table key |
| Vocabulary.SourceActionsCoded | remoto.py:474-486 | every accepted input action has a code exactly when it is not `siriusxm` |
| Vocabulary.SiriusXmRaises | remoto.py:284-286 | `siriusxm` is neither a key nor a number, so the conversion raises |
| Vocabulary.VolumeActionsCoded | remoto.py:439-453 | every accepted volume action has a code |
| Vocabulary.StatusSendsNothing | remoto.py:248-249 | `status` returns the category's label and first status reply, and sends no command |
| Vocabulary.ValidAction | remoto.py:428-502 | the actions the argument parser accepts for each category, already lower-cased. It has no ensures; `Vocabulary.TableActionsCoded`, `SourceActionsCoded` and `VolumeActionsCoded` use it |
| Vocabulary.CommandCodeNotQuery | remoto.py:284-294 | the code of any action, from the table or read as a number, is never a status query |
| Vocabulary.NumericCodeNotQuery | remoto.py:285-286 | a prefix followed by a `{:02}` number ends in a digit, so it is not a status query |
| Vocabulary.PadEndsInDigit | remoto.py:285 | `{:02}` always ends in a digit |
| Vocabulary.ResolveNotQuery | remoto.py:263-267 | resolving a command that is not a status query gives a command that is not one either |
| Vocabulary.ExecuteAtMostOnce | remoto.py:279-294 | whatever the action and the replies, `parse_command` sends at most one imperative, and it is the action's code resolved against the first status reply |
| Formatter.DisplayValue | remoto.py:306-319 | power and mute values are shown as they are, and only volume can fail to convert |
| Formatter.ParseResponse | remoto.py:297-322 | an error reply, exactly, gives exit status 1 with the message after the address. A crash happens exactly when a volume conversion raises |
| Formatter.Printed | remoto.py:302-322 | what `parse_response` leads to: a line to print, the error line with exit status 1, or a raised conversion |
| Formatter.VolumeTenths | remoto.py:308-309 | a three-digit reading is shown as `int(first two)`, a point and `int(last)` |
| Formatter.VolumeWhole | remoto.py:310-311 | any other digit reading is shown as its number, without leading zeros |
| Formatter.VolumeRoundTrip | remoto.py:307-311 | the reply to a level the controller set is shown as the level typed |
| Formatter.VolumeTenthsShown | remoto.py:308-309 | `455` is shown as `45.5` (a leading digit other than zero) |
| Formatter.ShownAs | remoto.py:320-322 | a non-error value other than `STANDBY` is printed as the address, the caller's label and the value |
| Formatter.StandbyRelabelled | remoto.py:320-322 | a `STANDBY` value outside the sound-mode category is printed under the power label |
| Formatter.StandbyShownAsIs | remoto.py:306-314 | `STANDBY` is shown unchanged outside the sound-mode category |
| Formatter.ModeNeverStandby | remoto.py:315-322 | a sound mode is never shown as `STANDBY` |
| Formatter.ModeNamesCover | remoto.py:92-97 | every sound-mode code except Dolby Digital has a display name |
| Formatter.DolbyShownCaseFolded | remoto.py:315-319 | the `dolby` code is `MSDOLBY DIGITAL`, and its reply is shown as `Dolby digital` |
| Formatter.SourceNamesCover | remoto.py:79-89 | every input code except Pandora has a display name, and `PANDORA` is shown as it is |
| Address.ValidateIp | remoto.py:130-144 | accepts exactly four dot-separated parts, each all digits and at most 255 |
| Address.OctetOk | remoto.py:136-140 | one part is all digits with value at most 255 |
| Address.ValidAddress | remoto.py:130-144 | the address splits on dots into exactly four acceptable parts. `Address.ValidAddressIsQuad` states it as a join |
| Address.ValidAddressIsQuad | remoto.py:130-144 | an address is accepted exactly when it is four acceptable parts joined by dots |
| Address.DottedQuadAccepted | remoto.py:130-144 | four acceptable parts joined by dots are accepted, leading zeros included |
| Address.OctetOfNat | remoto.py:136-140 | every number up to 255, written in decimal, is an acceptable part |
| Scenarios.VolumeSetTo35 | remoto.py:279-322 | `volume 35` on a receiver that is on sends `MV?`, `PW?`, `MV35` and `MV?`, then prints `[address] Volume Level: 35` |
| Scenarios.VolumeCode35 | remoto.py:284-290 | `35` becomes `MV35` |
| Scenarios.VolumeDispatch35 | remoto.py:246-276 | the dispatch of `MV35` against replies `MV40`, `PWON` and `MV35` |
| Scenarios.VolumeShown35 | remoto.py:297-322 | `MV35` is printed as `35` under the volume label |
| Scenarios.ReplyLine | remoto.py:217-236 | a clean line with the query's prefix, ended by a carriage return, ends the poll and is reported without the carriage return |
| Scenarios.PowerToggleFromOn | remoto.py:279-294 | `power toggle` on a receiver that is on sends `PW?`, `PWSTANDBY` and `PW?`, and returns `PWSTANDBY` |
| Scenarios.PowerToggleDispatch | remoto.py:246-276 | the dispatch of `toggle` against replies `PWON` and `PWSTANDBY` |
| Scenarios.PowerStandbyShown | remoto.py:320-322 | `PWSTANDBY` is printed as `STANDBY` under the power label |
| Scenarios.MuteToggleInStandby | remoto.py:279-294 | `mute toggle` in standby sends only `MU?` and `PW?`, and returns the power reply |
| Scenarios.MuteDispatchBlocked | remoto.py:256-275 | the dispatch of a mute toggle stops at the `PWSTANDBY` power reply |
| Scenarios.MuteStandbyShown | remoto.py:320-322 | a standby reply to a mute command is printed under the power label |

## Left out

- Opening and closing the connection (remoto.py:177-198) is left out: these are real sockets. A run starts on a connected, scripted link.
- `main` (remoto.py:325-348) is left out, and so is the interrupt handling in it.
- `validate_connection_info` (remoto.py:147-174) is left out: it prompts on the terminal.
- Argument parsing (remoto.py:352-510) is left out. Its choice lists appear only as `Vocabulary.ValidAction`, with the action already lower-cased.
- Printing and `sys.exit` are values of `Formatter.Printed`, not effects. The `print(e)` calls in the exception handlers are not modelled.
- UTF-8 encoding and the 32-byte limit on each read are not modelled. A text is one scripted read, so a reply that arrives split across reads is not covered.
- Timeouts and socket errors are scripted failures. A read past the end of the reply script counts as a timeout.
- Poller.RecvStatus: remoto.py:217-219 re-sends the query without bound while the receiver answers with another prefix or `MVMAX`. A reply script is finite, so every modelled poll ends, and a poll that never ends is not covered.
- Transport.SendStep: a send is all or nothing, so partial sends are not modelled.
- Text.IsDigits: only the ASCII digits count. Python's `isdigit()` also accepts other Unicode digits, which `int()` may then reject.
- Text.PyInt: underscores between digits and non-ASCII digits, which Python's `int()` accepts, are not modelled.
- Text.Lower: only ASCII letters are case-folded.
- Text.Capitalize: only ASCII letters are case-mapped, unlike `str.capitalize`, which maps every Unicode letter.
- Vocabulary.ValidAction: argparse's lower-casing is taken as given for ASCII text only.

=== FILE: address.dfy ===
/** validate_ip: an IPv4 address in dotted-quad form, four decimal parts
    each at most 255. */
module Address {
  import opened Text

  const Dot: char := '.'

  /** One part of the address: decimal digits whose value is at most
      255. */
  predicate OctetOk(x: string)
  {
    IsDigits(x) && ParseNat(x) <= 255
  }

  /** The address splits on dots into exactly four acceptable parts. */
  predicate ValidAddress(address: string)
  {
    var parts := SplitOn(address, Dot);
    |parts| == 4 && forall i :: 0 <= i < 4 ==> OctetOk(parts[i])
  }

  /** Four acceptable parts. */
  predicate Quad(parts: seq<string>)
  {
    |parts| == 4 && forall i :: 0 <= i < 4 ==> OctetOk(parts[i])
  }

  method ValidateIp(address: string) returns (ok: bool)
    ensures ok <==> ValidAddress(address)
  {
    var a := SplitOn(address, Dot);
    if |a| != 4 {
      return false;
    }
    var k := 0;
    while k < |a|
      invariant 0 <= k <= |a|
      invariant forall j :: 0 <= j < k ==> OctetOk(a[j])
    {
      if !IsDigits(a[k]) {
        return false;
      }
      // int() of a digit string is its decimal value
      var i := ParseNat(a[k]);
      if i < 0 || i > 255 {
        return false;
      }
      k := k + 1;
    }
    return true;
  }

  /** An address is accepted exactly when it is four acceptable parts
      joined by dots. */
  lemma ValidAddressIsQuad(address: string)
    ensures ValidAddress(address) <==> exists parts :: Quad(parts) && Join(parts, Dot) == address
  {
    if exists parts :: Quad(parts) && Join(parts, Dot) == address {
      var parts :| Quad(parts) && Join(parts, Dot) == address;
      forall i | 0 <= i < |parts|
        ensures Dot !in parts[i]
      {
        assert forall j :: 0 <= j < |parts[i]| ==> IsDigit(parts[i][j]);
      }
      SplitOnJoin(parts, Dot);
    }
  }

  /** Four acceptable parts joined by dots are accepted, leading zeros
      included ("192.168.001.010"). */
  lemma DottedQuadAccepted(a: string, b: string, c: string, d: string)
    requires OctetOk(a) && OctetOk(b) && OctetOk(c) && OctetOk(d)
    ensures ValidAddress(a + "." + b + "." + c + "." + d)
  {
    var parts := [a, b, c, d];
    assert Quad(parts);
    JoinFour(parts);
    ValidAddressIsQuad(Join(parts, Dot));
  }

  /** A number up to 255 in decimal is an acceptable part. */
  lemma OctetOfNat(n: nat)
    requires n <= 255
    ensures OctetOk(NatToString(n))
  {
  }

  lemma JoinFour(parts: seq<string>)
    requires |parts| == 4
    ensures Join(parts, Dot) == parts[0] + "." + parts[1] + "." + parts[2] + "." + parts[3]
  {
    var rest := parts[1..];
    assert rest[1..][1..] == [parts[3]];
    assert Join(rest[1..], Dot) == parts[2] + [Dot] + parts[3];
    assert Join(rest, Dot) == parts[1] + [Dot] + parts[2] + [Dot] + parts[3];
  }
}

=== FILE: dispatcher.dfy ===
/** The command dispatcher: query the category's status, leave early when
    nothing needs sending, otherwise check that the receiver is on, resolve
    a toggle against the current state, send the command once and query
    the status again. */
module Dispatcher {
  import opened Text
  import opened Protocol
  import opened Splitter
  import opened Transport
  import opened Poller

  /** Flip between two codes: a when the state is anything but a. */
  function Toggle(status: string, a: string, b: string): (r: string)
    ensures r == a || r == b
    ensures a != b ==> (r == b <==> status == a)
  {
    if status == a then b else a
  }

  /** Toggling twice between two distinct codes returns to a state that was
      one of them. */
  lemma ToggleTwice(status: string, a: string, b: string)
    requires a != b && (status == a || status == b)
    ensures Toggle(status, a, b) != status
    ensures Toggle(Toggle(status, a, b), a, b) == status
  {
  }

  /** The category is power (the query starts with "PW"). */
  predicate IsPowerQuery(query: string)
  {
    Prefix(query, 2) == "PW"
  }

  /** The category is mute (the query starts with "MU"). */
  predicate IsMuteQuery(query: string)
  {
    !IsPowerQuery(query) && Prefix(query, 2) == "MU"
  }

  /** Of the five categories' status queries, the power test picks out
      the power query alone and the mute test the mute query alone. */
  lemma QueryKinds(c: Category)
    ensures IsPowerQuery(StatusQuery(c)) <==> c == Power
    ensures IsMuteQuery(StatusQuery(c)) <==> c == Mute
  {
    var q := StatusQuery(c);
    assert Prefix(q, 2) == q[..2];
    match c
    case Power =>
    case Volume => assert q[0] == 'M' && q[1] == 'V';
    case Mute => assert q[0] == 'M' && q[1] == 'U';
    case Source => assert q[0] == 'S';
    case Mode => assert q[0] == 'M' && q[1] == 'S';
  }

  /** Nothing is sent beyond the first status query: the action is the
      status sentinel, the receiver already reports the command, or the
      query failed. */
  predicate ShortCircuits(cmd: string, resp: string)
  {
    cmd == StatusAction || cmd == resp || resp == ErrReceive
  }

  /** The command that goes on the wire: a toggle of power or mute becomes
      the code opposite to the current state; anything else is sent as it
      is. */
  function Resolve(cmd: string, resp: string, query: string): (c: string)
    ensures (IsPowerQuery(query) || IsMuteQuery(query)) && cmd == ToggleAction ==>
      if IsPowerQuery(query)
      then (c == PowerOffCode <==> resp == PowerOnCode) && (c == PowerOnCode <==> resp != PowerOnCode)
      else (c == MuteOffCode <==> resp == MuteOnCode) && (c == MuteOnCode <==> resp != MuteOnCode)
    ensures !((IsPowerQuery(query) || IsMuteQuery(query)) && cmd == ToggleAction) ==> c == cmd
  {
    if IsPowerQuery(query) && cmd == ToggleAction then Toggle(resp, PowerOnCode, PowerOffCode)
    else if IsMuteQuery(query) && cmd == ToggleAction then Toggle(resp, MuteOnCode, MuteOffCode)
    else cmd
  }

  /** The power state the send depends on: the first reply itself for the
      power category, a power status query for every other one. */
  function PowerState(w: Wire, resp: string, query: string): (string, Wire)
  {
    if IsPowerQuery(query) then (resp, w) else Poll(w, StatusQuery(Power))
  }

  /** send_command as a function of the link state. */
  function Dispatch(w: Wire, cmd: string, query: string): (string, Wire)
  {
    var (resp, w1) := Poll(w, query);
    if ShortCircuits(cmd, resp) then (resp, w1) else Proceed(w1, cmd, resp, query)
  }

  /** After a first reply that does not end the dispatch: check the power
      state, then send the resolved command, or return the power state. */
  function Proceed(w: Wire, cmd: string, resp: string, query: string): (string, Wire)
  {
    var (power, w2) := PowerState(w, resp, query);
    if IsPowerQuery(query) || power == PowerOnCode then Confirm(w2, Resolve(cmd, resp, query), query)
    else (power, w2)
  }

  /** Send a command; on success query the status again, on failure return
      the send error. */
  function Confirm(w: Wire, command: string, query: string): (string, Wire)
  {
    var (ok, w3) := SendStep(w, command);
    if ok then Poll(w3, query) else (ErrSend, w3)
  }

  method SendCommand(sock: Socket, cmd: string, query: string) returns (r: string)
    modifies sock
    ensures (r, sock.State()) == Dispatch(old(sock.State()), cmd, query)
  {
    ToggleCodeLookups();
    ghost var w0 := sock.State();
    var resp := RecvStatus(sock, query, false);
    ghost var w1 := sock.State();
    if cmd != StatusAction && cmd != resp && resp != ErrReceive {
      DispatchContinues(w0, cmd, query, resp, w1);
      var pwr := false;
      var mute := false;
      var power: string;
      var command := cmd;
      if Prefix(query, 2) == "PW" {
        pwr := true;
        power := resp;
      } else if Prefix(query, 2) == "MU" {
        mute := true;
        power := RecvStatus(sock, StatusQuery(Power), false);
      } else {
        power := RecvStatus(sock, StatusQuery(Power), false);
      }
      if (pwr || mute) && cmd == ToggleAction {
        command := if pwr then Toggle(resp, Codes["on"], Codes["off"])
                   else Toggle(resp, Codes["mute"], Codes["unmute"]);
      }
      assert command == Resolve(cmd, resp, query);
      assert (power, sock.State()) == PowerState(w1, resp, query);
      if pwr || power == Codes["on"] {
        assert Dispatch(w0, cmd, query) == Confirm(sock.State(), command, query);
        var ok := sock.Send(command);
        if ok {
          r := RecvStatus(sock, query, false);
        } else {
          r := ErrSend;
        }
      } else {
        r := power;
      }
    } else {
      r := resp;
    }
  }

  /** The lines of a send log that are not status queries: the commands
      that change the receiver's state. */
  function Imperatives(log: seq<string>): (r: seq<string>)
    ensures |r| <= |log|
    ensures forall i :: 0 <= i < |r| ==> r[i] in log && r[i] !in StatusQueries
    ensures forall x :: x in log && x !in StatusQueries ==> x in r
  {
    if log == [] then []
    else (if log[0] in StatusQueries then [] else [log[0]]) + Imperatives(log[1..])
  }

  lemma {:induction false} ImperativesAppend(a: seq<string>, b: seq<string>)
    ensures Imperatives(a + b) == Imperatives(a) + Imperatives(b)
  {
    if a == [] {
      assert a + b == b;
    } else {
      assert (a + b)[1..] == a[1..] + b;
      ImperativesAppend(a[1..], b);
    }
  }

  /** Status queries added to a log add no imperative. */
  lemma {:induction false} ImperativesRepeat(log: seq<string>, query: string, n: nat)
    requires query in StatusQueries
    ensures Imperatives(log + Repeat(query, n)) == Imperatives(log)
  {
    if n == 0 {
      assert log + Repeat(query, n) == log;
    } else {
      assert Repeat(query, n) == Repeat(query, n - 1) + [query];
      assert log + Repeat(query, n) == (log + Repeat(query, n - 1)) + [query];
      ImperativesAppend(log + Repeat(query, n - 1), [query]);
      ImperativesRepeat(log, query, n - 1);
    }
  }

  /** A status poll sends no imperative. */
  lemma PollSendsNoImperative(w: Wire, query: string)
    requires query in StatusQueries
    ensures Imperatives(Poll(w, query).1.sent) == Imperatives(w.sent)
  {
    PollFromSends(w, "", query);
    var r := Poll(w, query).1;
    ImperativesRepeat(w.sent, query, |r.sent| - |w.sent|);
  }

  /** The status sentinel, a command the receiver already reports, or a
      failed first query: the first reply is the result and nothing but
      the status query was sent. */
  lemma DispatchShortCircuit(w: Wire, cmd: string, query: string)
    requires query in StatusQueries
    requires ShortCircuits(cmd, Poll(w, query).0)
    ensures Dispatch(w, cmd, query) == Poll(w, query)
    ensures Imperatives(Dispatch(w, cmd, query).1.sent) == Imperatives(w.sent)
  {
    PollSendsNoImperative(w, query);
  }

  /** A category other than power on a receiver that is not on: the power
      reply is the result and no command is sent. */
  lemma DispatchBlocked(w: Wire, cmd: string, query: string)
    requires query in StatusQueries && !IsPowerQuery(query)
    requires !ShortCircuits(cmd, Poll(w, query).0)
    requires Poll(Poll(w, query).1, "PW?").0 != PowerOnCode
    ensures Dispatch(w, cmd, query).0 == Poll(Poll(w, query).1, "PW?").0
    ensures Imperatives(Dispatch(w, cmd, query).1.sent) == Imperatives(w.sent)
  {
    var w1 := Poll(w, query).1;
    PollSendsNoImperative(w, query);
    PollSendsNoImperative(w1, "PW?");
  }

  /** Otherwise the resolved command is sent exactly once; when the send
      fails the result is the send error, when it succeeds the result is a
      fresh status query of the same category. */
  lemma DispatchSends(w: Wire, cmd: string, query: string)
    requires query in StatusQueries
    requires !ShortCircuits(cmd, Poll(w, query).0)
    requires IsPowerQuery(query) || Poll(Poll(w, query).1, "PW?").0 == PowerOnCode
    requires Resolve(cmd, Poll(w, query).0, query) !in StatusQueries
    ensures var (resp, w1) := Poll(w, query);
      var (power, w2) := PowerState(w1, resp, query);
      var command := Resolve(cmd, resp, query);
      var (ok, w3) := SendStep(w2, command);
      var res := Dispatch(w, cmd, query);
      && Imperatives(res.1.sent) == Imperatives(w.sent) + (if ok then [command] else [])
      && res.0 == (if ok then Poll(w3, query).0 else ErrSend)
  {
    var (resp, w1) := Poll(w, query);
    var (power, w2) := PowerState(w1, resp, query);
    var command := Resolve(cmd, resp, query);
    DispatchReachesConfirm(w, cmd, query, resp, w1, w2);
    ConfirmOutcome(w2, command, query);
  }

  /** A dispatch past both checks is the confirmation of the resolved
      command, from a state whose log holds no new imperative. */
  lemma DispatchReachesConfirm(w: Wire, cmd: string, query: string, resp: string, w1: Wire, w2: Wire)
    requires query in StatusQueries
    requires Poll(w, query) == (resp, w1) && !ShortCircuits(cmd, resp)
    requires IsPowerQuery(query) || Poll(w1, "PW?").0 == PowerOnCode
    requires w2 == PowerState(w1, resp, query).1
    ensures Dispatch(w, cmd, query) == Confirm(w2, Resolve(cmd, resp, query), query)
    ensures Imperatives(w2.sent) == Imperatives(w.sent)
  {
    DispatchContinues(w, cmd, query, resp, w1);
    PollSendsNoImperative(w, query);
    if IsPowerQuery(query) {
      ProceedPower(w1, cmd, resp, query);
    } else {
      ProceedOn(w1, cmd, resp, query, w2);
      PollSendsNoImperative(w1, "PW?");
    }
  }

  /** A confirmation sends the command once: on success the result is a
      fresh status query, which adds no imperative; on failure the send
      error. */
  lemma ConfirmOutcome(w2: Wire, command: string, query: string)
    requires query in StatusQueries && command !in StatusQueries
    ensures var (ok, w3) := SendStep(w2, command);
      var res := Confirm(w2, command, query);
      && Imperatives(res.1.sent) == Imperatives(w2.sent) + (if ok then [command] else [])
      && res.0 == (if ok then Poll(w3, query).0 else ErrSend)
  {
    var (ok, w3) := SendStep(w2, command);
    if ok {
      ImperativesAppend(w2.sent, [command]);
      PollSendsNoImperative(w3, query);
    }
  }

  /** Whatever the replies, a dispatch sends at most one imperative, and it
      is the resolved command. */
  lemma DispatchAtMostOnce(w: Wire, cmd: string, query: string)
    requires query in StatusQueries
    requires Resolve(cmd, Poll(w, query).0, query) !in StatusQueries
    ensures var added := Imperatives(Dispatch(w, cmd, query).1.sent);
      || added == Imperatives(w.sent)
      || added == Imperatives(w.sent) + [Resolve(cmd, Poll(w, query).0, query)]
  {
    var (resp, w1) := Poll(w, query);
    if ShortCircuits(cmd, resp) {
      DispatchShortCircuit(w, cmd, query);
    } else if IsPowerQuery(query) || Poll(w1, "PW?").0 == PowerOnCode {
      DispatchSends(w, cmd, query);
    } else {
      DispatchBlocked(w, cmd, query);
    }
  }

  /** With every send succeeding, a command that passes both checks is
      delivered. */
  lemma DispatchDelivers(w: Wire, cmd: string, query: string)
    requires query in StatusQueries && SendsSucceed(w)
    requires !ShortCircuits(cmd, Poll(w, query).0)
    requires IsPowerQuery(query) || Poll(Poll(w, query).1, "PW?").0 == PowerOnCode
    requires Resolve(cmd, Poll(w, query).0, query) !in StatusQueries
    ensures Imperatives(Dispatch(w, cmd, query).1.sent)
         == Imperatives(w.sent) + [Resolve(cmd, Poll(w, query).0, query)]
  {
    var (resp, w1) := Poll(w, query);
    PollKeepsSendsSucceed(w, query);
    if !IsPowerQuery(query) {
      PollKeepsSendsSucceed(w1, "PW?");
    }
    DispatchSends(w, cmd, query);
    var (power, w2) := PowerState(w1, resp, query);
    var (ok, w3) := SendStep(w2, Resolve(cmd, resp, query));
    assert ok;
  }

  /** A scripted confirmation: the command and the query go out and the
      accepted reply is the result. */
  lemma ConfirmRun(w: Wire, command: string, query: string, b: string)
    requires w.sendOk == [] && w.replies == [Received(b)]
    requires query != [] && Accepts(b, query)
    ensures Confirm(w, command, query) == (Split(b), Wire([], [], w.sent + [command, query]))
  {
    var w3 := Wire([Received(b)], [], w.sent + [command]);
    SentOnce(w, command, w3);
    PolledOnce(w3, query, b);
    assert w3.sent + [query] == w.sent + [command, query];
  }

  lemma SentOnce(w: Wire, command: string, w3: Wire)
    requires w.sendOk == [] && w3 == w.(sent := w.sent + [command])
    ensures SendStep(w, command) == (true, w3)
  {
  }

  lemma PolledOnce(w: Wire, query: string, b: string)
    requires w.sendOk == [] && w.replies == [Received(b)]
    requires query != [] && Accepts(b, query)
    ensures Poll(w, query) == (Split(b), Wire([], [], w.sent + [query]))
  {
    PollFirstReply(w, query, b);
    assert w.replies[1..] == [];
  }

  /** The first reply of a scripted run, with no send failures scripted. */
  lemma PolledFirst(w: Wire, query: string, a: string, w1: Wire)
    requires query != [] && w.sendOk == [] && |w.replies| >= 1 && w.replies[0] == Received(a)
    requires Accepts(a, query)
    requires w1 == Wire(w.replies[1..], [], w.sent + [query])
    ensures Poll(w, query) == (Split(a), w1)
  {
    PollFirstReply(w, query, a);
  }

  /** A run of a power command: after a first reply that does not end the
      dispatch, the resolved command and the power query go out, and the
      scripted reply to that query is the result. */
  lemma DispatchRunPower(w: Wire, cmd: string, query: string, resp: string, w1: Wire, b: string)
    requires Poll(w, query) == (resp, w1) && !ShortCircuits(cmd, resp)
    requires query != [] && IsPowerQuery(query)
    requires w1.sendOk == [] && w1.replies == [Received(b)] && Accepts(b, query)
    ensures Dispatch(w, cmd, query)
         == (Split(b), Wire([], [], w1.sent + [Resolve(cmd, resp, query), query]))
  {
    DispatchContinues(w, cmd, query, resp, w1);
    ProceedPower(w1, cmd, resp, query);
    ConfirmRun(w1, Resolve(cmd, resp, query), query, b);
  }

  /** For the power category the command is confirmed at once. */
  lemma ProceedPower(w1: Wire, cmd: string, resp: string, query: string)
    requires IsPowerQuery(query)
    ensures Proceed(w1, cmd, resp, query) == Confirm(w1, Resolve(cmd, resp, query), query)
  {
  }

  /** A run of another category on a receiver that is on: after a first
      reply that does not end the dispatch and a power reply that says on,
      the command and the category query go out, and the scripted reply to
      that query is the result. */
  lemma DispatchRunOn(w: Wire, cmd: string, query: string, resp: string, w1: Wire, w2: Wire, b: string)
    requires Poll(w, query) == (resp, w1) && !ShortCircuits(cmd, resp)
    requires !IsPowerQuery(query) && Poll(w1, StatusQuery(Power)) == (PowerOnCode, w2)
    requires query != [] && w2.sendOk == [] && w2.replies == [Received(b)] && Accepts(b, query)
    ensures Dispatch(w, cmd, query)
         == (Split(b), Wire([], [], w2.sent + [Resolve(cmd, resp, query), query]))
  {
    DispatchContinues(w, cmd, query, resp, w1);
    ProceedOn(w1, cmd, resp, query, w2);
    ConfirmRun(w2, Resolve(cmd, resp, query), query, b);
  }

  /** A dispatch whose first reply does not end it continues from the
      state after that reply. */
  lemma DispatchContinues(w: Wire, cmd: string, query: string, resp: string, w1: Wire)
    requires Poll(w, query) == (resp, w1) && !ShortCircuits(cmd, resp)
    ensures Dispatch(w, cmd, query) == Proceed(w1, cmd, resp, query)
  {
  }

  /** The power query of a scripted run. */
  lemma PowerQueryPolled(w1: Wire, p: string, w2: Wire)
    requires w1.sendOk == [] && |w1.replies| >= 1 && w1.replies[0] == Received(p)
    requires Accepts(p, "PW?")
    requires w2 == Wire(w1.replies[1..], [], w1.sent + ["PW?"])
    ensures Poll(w1, StatusQuery(Power)) == (Split(p), w2)
  {
    PolledFirst(w1, "PW?", p, w2);
  }

  /** Past a power reply that says on, the resolved command is confirmed. */
  lemma ProceedOn(w1: Wire, cmd: string, resp: string, query: string, w2: Wire)
    requires !IsPowerQuery(query) && Poll(w1, StatusQuery(Power)) == (PowerOnCode, w2)
    ensures Proceed(w1, cmd, resp, query) == Confirm(w2, Resolve(cmd, resp, query), query)
  {
  }

  /** Past a power reply that does not say on, the power reply is the
      result. */
  lemma ProceedBlocked(w1: Wire, cmd: string, resp: string, query: string, power: string, w2: Wire)
    requires !IsPowerQuery(query) && Poll(w1, StatusQuery(Power)) == (power, w2)
    requires power != PowerOnCode
    ensures Proceed(w1, cmd, resp, query) == (power, w2)
  {
  }

  /** A scripted run of another category on a receiver that is not on:
      after a first reply that does not end the dispatch, the power query
      only, and the power reply is the result. */
  lemma DispatchRunBlocked(w: Wire, cmd: string, query: string, resp: string, w1: Wire, p: string)
    requires Poll(w, query) == (resp, w1) && !ShortCircuits(cmd, resp)
    requires !IsPowerQuery(query)
    requires w1.sendOk == [] && w1.replies == [Received(p)]
    requires Accepts(p, "PW?") && Split(p) != PowerOnCode
    ensures Dispatch(w, cmd, query) == (Split(p), Wire([], [], w1.sent + ["PW?"]))
  {
    var w2 := Wire([], [], w1.sent + ["PW?"]);
    assert w1.replies[1..] == [];
    PowerQueryPolled(w1, p, w2);
    ProceedBlocked(w1, cmd, resp, query, Split(p), w2);
  }

  /** A whole scripted power run: the first reply a, which does not end
      the dispatch, then the confirmation b. */
  lemma DispatchScriptPower(w: Wire, cmd: string, query: string, a: string, b: string)
    requires w.sendOk == [] && w.replies == [Received(a), Received(b)]
    requires query != [] && IsPowerQuery(query) && Accepts(a, query) && Accepts(b, query)
    requires !ShortCircuits(cmd, Split(a))
    ensures Dispatch(w, cmd, query)
         == (Split(b), Wire([], [], w.sent + [query, Resolve(cmd, Split(a), query), query]))
  {
    var w1 := Wire([Received(b)], [], w.sent + [query]);
    assert w.replies[1..] == w1.replies;
    PolledFirst(w, query, a, w1);
    DispatchRunPower(w, cmd, query, Split(a), w1, b);
    SentThree(w.sent, query, Resolve(cmd, Split(a), query), query);
  }

  /** A whole scripted run of another category on a receiver that is on:
      the first reply a, the power reply p that says on, then the
      confirmation b. */
  lemma DispatchScriptOn(w: Wire, cmd: string, query: string, a: string, p: string, b: string)
    requires w.sendOk == [] && w.replies == [Received(a), Received(p), Received(b)]
    requires query != [] && !IsPowerQuery(query) && Accepts(a, query) && Accepts(b, query)
    requires !ShortCircuits(cmd, Split(a))
    requires Accepts(p, "PW?") && Split(p) == PowerOnCode
    ensures Dispatch(w, cmd, query)
         == (Split(b), Wire([], [], w.sent + [query, "PW?", Resolve(cmd, Split(a), query), query]))
  {
    var w1 := Wire([Received(p), Received(b)], [], w.sent + [query]);
    assert w.replies[1..] == w1.replies;
    PolledFirst(w, query, a, w1);
    var w2 := Wire([Received(b)], [], w1.sent + ["PW?"]);
    assert w1.replies[1..] == w2.replies;
    PowerQueryPolled(w1, p, w2);
    DispatchRunOn(w, cmd, query, Split(a), w1, w2, b);
    SentFour(w.sent, query, "PW?", Resolve(cmd, Split(a), query), query);
  }

  /** A whole scripted run of another category on a receiver that is not
      on: the first reply a, then the power reply p, which is the result. */
  lemma DispatchScriptBlocked(w: Wire, cmd: string, query: string, a: string, p: string)
    requires w.sendOk == [] && w.replies == [Received(a), Received(p)]
    requires query != [] && !IsPowerQuery(query) && Accepts(a, query)
    requires !ShortCircuits(cmd, Split(a))
    requires Accepts(p, "PW?") && Split(p) != PowerOnCode
    ensures Dispatch(w, cmd, query) == (Split(p), Wire([], [], w.sent + [query, "PW?"]))
  {
    var w1 := Wire([Received(p)], [], w.sent + [query]);
    assert w.replies[1..] == w1.replies;
    PolledFirst(w, query, a, w1);
    DispatchRunBlocked(w, cmd, query, Split(a), w1, p);
    SentTwo(w.sent, query, "PW?");
  }

  lemma SentTwo(log: seq<string>, a: string, b: string)
    ensures log + [a] + [b] == log + [a, b]
  {
  }

  lemma SentThree(log: seq<string>, a: string, b: string, c: string)
    ensures log + [a] + [b, c] == log + [a, b, c]
  {
  }

  lemma SentFour(log: seq<string>, a: string, b: string, c: string, d: string)
    ensures log + [a] + [b] + [c, d] == log + [a, b, c, d]
  {
  }
}

=== FILE: formatter.dfy ===
/** parse_response: turn the dispatcher's reply into the line the
    controller prints, or into the exit taken on an error reply. */
module Formatter {
  import opened Text
  import opened Protocol
  import opened Vocabulary

  /** What parse_response does with a reply: return a line to print, print
      the error and exit with a status, or raise (a conversion remoto.py
      does not guard). */
  datatype Printed = Line(text: string) | Exit(text: string, status: int) | Crash

  /** How a reply without its two-letter prefix is displayed; None when the
      int() conversion in remoto.py raises. */
  function DisplayValue(cat: Category, rem: string): (v: Option<string>)
    ensures cat != Volume ==> v.Some?
    ensures cat == Power || cat == Mute ==> v == Some(rem)
  {
    match cat
    case Volume =>
      if |rem| == 3 then
        match (PyInt(rem[..2]), PyInt(rem[2..]))
        case (Some(whole), Some(tenth)) => Some(IntToString(whole) + "." + IntToString(tenth))
        case _ => None
      else if IsDigits(rem) then Some(NatToString(ParseNat(rem)))
      else Some(rem)
    case Source => Some(if rem in SourceNames then SourceNames[rem] else rem)
    case Mode => Some(if rem in ModeNames then ModeNames[rem] else Capitalize(Lower(rem)))
    case Power => Some(rem)
    case Mute => Some(rem)
  }

  /** "[address] label value"; an error reply is printed after the address
      and ends the program with status 1; a standby reading is labelled as
      a power state. */
  function ParseResponse(address: string, cat: Category, msg: string, resp: string): (p: Printed)
    ensures p.Exit? <==> resp in Errors.Values
    ensures p.Exit? ==> p == Exit("[" + address + "] " + resp, 1)
    ensures p.Crash? <==> resp !in Errors.Values && DisplayValue(cat, Drop(resp, 2)).None?
  {
    if resp in Errors.Values then Exit("[" + address + "] " + resp, 1)
    else
      match DisplayValue(cat, Drop(resp, 2))
      case None => Crash
      case Some(v) => Line("[" + address + "] " + (if v == "STANDBY" then Label(Power) else msg) + " " + v)
  }

  /** A three-digit volume reading is shown in half steps: the first two
      digits, a point and the last digit. */
  lemma VolumeTenths(rem: string)
    requires |rem| == 3 && IsDigits(rem)
    ensures DisplayValue(Volume, rem)
         == Some(NatToString(ParseNat(rem[..2])) + "." + NatToString(ParseNat(rem[2..])))
  {
    var whole, tenth := rem[..2], rem[2..];
    assert IsDigits(whole) && IsDigits(tenth);
    assert PyInt(whole) == Some(ParseNat(whole) as int);
    assert PyInt(tenth) == Some(ParseNat(tenth) as int);
    assert IntToString(ParseNat(whole)) == NatToString(ParseNat(whole));
    assert IntToString(ParseNat(tenth)) == NatToString(ParseNat(tenth));
  }

  /** Any other all-digit reading is shown as the number it spells, without
      leading zeros. */
  lemma VolumeWhole(rem: string)
    requires |rem| != 3 && IsDigits(rem)
    ensures DisplayValue(Volume, rem) == Some(NatToString(ParseNat(rem)))
    ensures ParseNat(rem) < 10 ==> |DisplayValue(Volume, rem).value| == 1
  {
  }

  /** A volume the controller set is shown as the level typed on the
      command line: "MV" and the two-digit level reads back as the level. */
  lemma VolumeRoundTrip(n: nat)
    requires n <= 90
    ensures DisplayValue(Volume, Drop("MV" + Pad2(n), 2)) == Some(NatToString(n))
  {
    VolumeLevelCode(n);
    assert Drop("MV" + Pad2(n), 2) == Pad2(n);
  }

  /** Without a leading zero, a three-digit reading is shown as its first
      two digits, a point and its last digit ("455" as "45.5"). */
  lemma VolumeTenthsShown(rem: string)
    requires |rem| == 3 && IsDigits(rem) && rem[0] != '0'
    ensures DisplayValue(Volume, rem) == Some(rem[..2] + "." + rem[2..])
  {
    VolumeTenths(rem);
    NatToStringParseNat(rem[..2]);
    NatToStringParseNat(rem[2..]);
  }

  /** A reply that is not an error and whose value displays as v (other
      than "STANDBY") is printed as the address, the caller's label and v. */
  lemma ShownAs(address: string, cat: Category, msg: string, resp: string, v: string)
    requires resp !in Errors.Values && DisplayValue(cat, Drop(resp, 2)) == Some(v) && v != "STANDBY"
    ensures ParseResponse(address, cat, msg, resp) == Line("[" + address + "] " + msg + " " + v)
  {
  }

  /** A standby reading from any category but the sound mode is labelled
      as a power state. */
  lemma StandbyRelabelled(address: string, cat: Category, msg: string, resp: string)
    requires cat != Mode && |resp| >= 2 && resp[2..] == "STANDBY"
    ensures ParseResponse(address, cat, msg, resp) == Line("[" + address + "] " + Label(Power) + " " + "STANDBY")
  {
    assert resp[2] == 'S';
    NotAnError(resp);
    assert Drop(resp, 2) == "STANDBY";
    StandbyShownAsIs(cat);
  }

  lemma StandbyShownAsIs(cat: Category)
    requires cat != Mode
    ensures DisplayValue(cat, "STANDBY") == Some("STANDBY")
  {
    if cat == Volume {
      assert !IsDigit("STANDBY"[0]);
    } else if cat == Source {
      assert "STANDBY" !in SourceNames;
    }
  }

  /** A sound mode is never displayed as "STANDBY": a mode reading keeps
      the sound-mode label. */
  lemma ModeNeverStandby(rem: string)
    ensures DisplayValue(Mode, rem) != Some("STANDBY")
  {
    if rem !in ModeNames && |rem| == 7 {
      var v := Capitalize(Lower(rem));
      assert v[1] == LowerChar(rem[1]) != 'T';
    }
  }

  /** Every sound-mode code but the "dolby" one has a display name. */
  lemma ModeNamesCover()
    ensures forall c :: c in ModeCodes && c != "MSDOLBY DIGITAL" ==> Drop(c, 2) in ModeNames
  {
  }

  /** The "dolby" action asks for Dolby Digital while the name table only
      knows Dolby Surround, so its reply is shown case-folded. */
  lemma DolbyShownCaseFolded()
    ensures Codes["dolby"] == "MSDOLBY DIGITAL"
    ensures DisplayValue(Mode, Drop("MSDOLBY DIGITAL", 2)) == Some("Dolby digital")
  {
    DolbyCode();
    assert Drop("MSDOLBY DIGITAL", 2) == "DOLBY DIGITAL";
    DolbyNotNamed();
    DolbyFolded();
  }

  lemma DolbyFolded()
    ensures Capitalize(Lower("DOLBY DIGITAL")) == "Dolby digital"
  {
    var v := Capitalize(Lower("DOLBY DIGITAL"));
    assert |v| == 13;
    forall i | 0 <= i < 13
      ensures v[i] == "Dolby digital"[i]
    {
    }
  }

  lemma DolbyCode()
    ensures Codes["dolby"] == "MSDOLBY DIGITAL"
  {
  }

  lemma DolbyNotNamed()
    ensures "DOLBY DIGITAL" !in ModeNames
  {
  }

  /** Every input code but "SIPANDORA" has a display name; a Pandora reply
      is shown as the receiver sends it. */
  lemma SourceNamesCover()
    ensures forall c :: c in SourceCodes && c != "SIPANDORA" ==> Drop(c, 2) in SourceNames
    ensures DisplayValue(Source, "PANDORA") == Some("PANDORA")
  {
    FirstSourcesNamed();
    LastSourcesNamed();
    assert "PANDORA" !in SourceNames;
  }

  lemma FirstSourcesNamed()
    ensures forall c :: c in {"SIBT", "SITUNER", "SIAUX1", "SIIRADIO", "SIMPLAY", "SIGAME"} ==> Drop(c, 2) in SourceNames
  {
  }

  lemma LastSourcesNamed()
    ensures forall c :: c in {"SIDVD", "SIBD", "SIFAVORITES", "SISIRIUSXM", "SIUSB/IPOD"} ==> Drop(c, 2) in SourceNames
  {
  }
}

=== FILE: poller.dfy ===
/** The status poller: send a status query, read, and repeat until the raw
    reply carries the query's two-letter prefix and is not the volume-limit
    advisory. A transport failure ends the loop with the receive error. */
module Poller {
  import opened Text
  import opened Protocol
  import opened Splitter
  import opened Transport

  /** The loop's exit test, made on the raw reply (not on its split). */
  predicate Accepts(resp: string, query: string)
  {
    Prefix(resp, 2) == Prefix(query, 2) && Prefix(resp, 5) != "MVMAX"
  }

  /** The polling loop from a current raw reply resp: the raw reply that
      ends it, or None when a send or a read fails. */
  function PollFrom(w: Wire, resp: string, query: string): (res: (Option<string>, Wire))
    decreases |w.replies|
  {
    if Accepts(resp, query) then (Some(resp), w)
    else
      var (ok, w1) := SendStep(w, query);
      if !ok then (None, w1)
      else
        var (got, w2) := RecvStep(w1);
        if got.None? then (None, w2)
        else PollFrom(w2, got.value, query)
  }

  /** Polling mode: the loop starts from the empty reply; a failure gives
      the receive error, and the reply that ends the loop is split. */
  function Poll(w: Wire, query: string): (string, Wire)
  {
    var res := PollFrom(w, "", query);
    (if res.0.None? then ErrReceive else Split(res.0.value), res.1)
  }

  /** Receive-only mode: one read, no send. */
  function ReceiveOnce(w: Wire): (res: (string, Wire))
    ensures res.1.sent == w.sent
    ensures res.1.sendOk == w.sendOk
    ensures res.1.replies == if w.replies == [] then [] else w.replies[1..]
    ensures if w.replies != [] && w.replies[0].Received?
            then res.0 == Split(w.replies[0].text)
            else res.0 == ErrReceive
  {
    var (got, w1) := RecvStep(w);
    if got.None? then (ErrReceive, w1) else (Split(got.value), w1)
  }

  method RecvStatus(sock: Socket, query: string, receiveOnly: bool) returns (r: string)
    modifies sock
    ensures (r, sock.State()) == if receiveOnly then ReceiveOnce(old(sock.State()))
                                 else Poll(old(sock.State()), query)
  {
    if receiveOnly {
      var got := sock.Recv();
      r := if got.None? then ErrReceive else Split(got.value);
      return;
    }
    var resp := "";
    while !Accepts(resp, query)
      invariant PollFrom(sock.State(), resp, query) == PollFrom(old(sock.State()), "", query)
      decreases |sock.replies|
    {
      var ok := sock.Send(query);
      if !ok {
        return ErrReceive;
      }
      var got := sock.Recv();
      if got.None? {
        return ErrReceive;
      }
      resp := got.value;
    }
    r := Split(resp);
  }

  /** n copies of a line. */
  function Repeat(line: string, n: nat): (s: seq<string>)
    ensures |s| == n && forall i :: 0 <= i < n ==> s[i] == line
  {
    seq(n, _ => line)
  }

  /** One more copy of a line, logged after log. */
  lemma RepeatCons(log: seq<string>, line: string, n: nat)
    ensures (log + [line]) + Repeat(line, n) == log + Repeat(line, n + 1)
  {
    assert [line] + Repeat(line, n) == Repeat(line, n + 1);
  }

  /** Every scripted send succeeds. */
  predicate SendsSucceed(w: Wire)
  {
    forall i :: 0 <= i < |w.sendOk| ==> w.sendOk[i]
  }

  /** A readable reply that the poll rejects. */
  predicate Rejected(c: Chunk, query: string)
  {
    c.Received? && !Accepts(c.text, query)
  }

  /** One turn of the loop: a rejected reply, a send that succeeds and a
      readable reply continue the loop from that reply, with the query
      logged and one reply and one send outcome used up. */
  lemma PollFromStep(w: Wire, resp: string, query: string)
    requires !Accepts(resp, query)
    requires w.sendOk == [] || w.sendOk[0]
    requires w.replies != [] && w.replies[0].Received?
    ensures PollFrom(w, resp, query)
         == PollFrom(Wire(w.replies[1..], if w.sendOk == [] then [] else w.sendOk[1..], w.sent + [query]),
                     w.replies[0].text, query)
  {
  }

  /** A rejected reply followed by a failed send or an unreadable reply
      ends the loop in failure. */
  lemma PollFromStops(w: Wire, resp: string, query: string)
    requires !Accepts(resp, query)
    requires !((w.sendOk == [] || w.sendOk[0]) && w.replies != [] && w.replies[0].Received?)
    ensures PollFrom(w, resp, query).0 == None
  {
  }

  /** A poll consumes k replies from the front of the script. */
  lemma {:induction false} PollFromConsumes(w: Wire, resp: string, query: string)
    ensures var res := PollFrom(w, resp, query);
      var k := |w.replies| - |res.1.replies|;
      0 <= k <= |w.replies| && res.1.replies == w.replies[k..]
    decreases |w.replies|
  {
    if !Accepts(resp, query) {
      var (ok, w1) := SendStep(w, query);
      if ok {
        var (got, w2) := RecvStep(w1);
        if got.Some? {
          PollFromConsumes(w2, got.value, query);
          assert w2.replies == w.replies[1..];
        }
      }
    }
  }

  /** A poll uses up a prefix of the send-outcome script. */
  lemma {:induction false} PollFromSendOk(w: Wire, resp: string, query: string)
    ensures var res := PollFrom(w, resp, query);
      |res.1.sendOk| <= |w.sendOk| && res.1.sendOk == w.sendOk[|w.sendOk| - |res.1.sendOk|..]
    decreases |w.replies|
  {
    if !Accepts(resp, query) {
      var (ok, w1) := SendStep(w, query);
      if w.sendOk != [] {
        assert w1.sendOk == w.sendOk[1..];
      }
      if ok {
        var (got, w2) := RecvStep(w1);
        if got.Some? {
          assert PollFrom(w, resp, query) == PollFrom(w2, got.value, query);
          PollFromSendOk(w2, got.value, query);
          var r := PollFrom(w2, got.value, query).1.sendOk;
          if w.sendOk != [] {
            assert w2.sendOk[|w2.sendOk| - |r|..] == w.sendOk[|w.sendOk| - |r|..];
          }
        }
      }
    }
  }

  /** A poll that starts with sends that all succeed leaves them so. */
  lemma PollKeepsSendsSucceed(w: Wire, query: string)
    requires SendsSucceed(w)
    ensures SendsSucceed(Poll(w, query).1)
  {
    PollFromSendOk(w, "", query);
    var r := Poll(w, query).1;
    forall i | 0 <= i < |r.sendOk|
      ensures r.sendOk[i]
    {
      assert r.sendOk[i] == w.sendOk[|w.sendOk| - |r.sendOk| + i];
    }
  }

  /** A poll sends nothing but the query, at least once per reply it
      consumes. */
  lemma {:induction false} PollFromSends(w: Wire, resp: string, query: string)
    ensures var res := PollFrom(w, resp, query);
      var n := |res.1.sent| - |w.sent|;
      && n >= 0 && n >= |w.replies| - |res.1.replies|
      && res.1.sent == w.sent + Repeat(query, n)
    decreases |w.replies|
  {
    if !Accepts(resp, query) {
      var (ok, w1) := SendStep(w, query);
      if ok {
        var (got, w2) := RecvStep(w1);
        if got.Some? {
          PollFromSends(w2, got.value, query);
          var n2 := |PollFrom(w2, got.value, query).1.sent| - |w2.sent|;
          assert w2.sent == w.sent + [query];
          RepeatCons(w.sent, query, n2);
        }
      } else {
        assert w1.sent == w.sent + Repeat(query, 0);
      }
    } else {
      assert w.sent == w.sent + Repeat(query, 0);
    }
  }

  /** All but the last of the k replies a poll consumes were readable and
      rejected. */
  lemma {:induction false} PollFromRejects(w: Wire, resp: string, query: string)
    ensures var k := |w.replies| - |PollFrom(w, resp, query).1.replies|;
      forall j :: 0 <= j < k - 1 ==> Rejected(w.replies[j], query)
    decreases |w.replies|
  {
    if !Accepts(resp, query) {
      var (ok, w1) := SendStep(w, query);
      if ok {
        var (got, w2) := RecvStep(w1);
        if got.Some? {
          var res2 := PollFrom(w2, got.value, query);
          assert PollFrom(w, resp, query) == res2;
          PollFromRejects(w2, got.value, query);
          PollFromConsumes(w2, got.value, query);
          assert w.replies[0] == Received(got.value);
          var k2 := |w2.replies| - |res2.1.replies|;
          forall j | 1 <= j < k2
            ensures Rejected(w.replies[j], query)
          {
            assert w.replies[j] == w2.replies[j - 1];
          }
        }
      }
    }
  }

  /** How the loop can end, given the replies before and after it: in
      failure, on the reply it started from (nothing read), or on the last
      reply it read; an accepted reply in the last two cases. */
  predicate EndedBy(replies: seq<Chunk>, rest: seq<Chunk>, resp: string, out: Option<string>, query: string)
  {
    var k := |replies| - |rest|;
    || out == None
    || (k == 0 && Accepts(resp, query) && out == Some(resp))
    || (1 <= k <= |replies| && replies[k - 1].Received? && Accepts(replies[k - 1].text, query)
        && out == Some(replies[k - 1].text))
  }

  /** What the loop ends with: a failure, or an accepted raw reply, which
      is the last one read (or the reply it started from, when that is
      already accepted and nothing is read). */
  lemma {:induction false} PollFromOutcome(w: Wire, resp: string, query: string)
    ensures EndedBy(w.replies, PollFrom(w, resp, query).1.replies, resp, PollFrom(w, resp, query).0, query)
    decreases |w.replies|
  {
    if Accepts(resp, query) {
      assert PollFrom(w, resp, query) == (Some(resp), w);
    } else if !((w.sendOk == [] || w.sendOk[0]) && w.replies != [] && w.replies[0].Received?) {
      PollFromStops(w, resp, query);
    } else {
      var w2 := Wire(w.replies[1..], if w.sendOk == [] then [] else w.sendOk[1..], w.sent + [query]);
      var next := w.replies[0].text;
      PollFromStep(w, resp, query);
      var res2 := PollFrom(w2, next, query);
      PollFromOutcome(w2, next, query);
      PollFromConsumes(w2, next, query);
      EndedByShift(w.replies, res2.1.replies, resp, next, res2.0, query);
    }
  }

  /** The loop's end, seen one reply earlier: when the first reply was
      read and the rest of the loop ended as EndedBy says, the whole loop
      did too. */
  lemma EndedByShift(replies: seq<Chunk>, rest: seq<Chunk>, resp: string, next: string,
                     out: Option<string>, query: string)
    requires replies != [] && replies[0] == Received(next)
    requires |rest| <= |replies| - 1
    requires EndedBy(replies[1..], rest, next, out, query)
    ensures EndedBy(replies, rest, resp, out, query)
  {
    var k2 := |replies| - 1 - |rest|;
    if out != None && k2 != 0 {
      assert replies[k2] == replies[1..][k2 - 1];
    }
  }

  /** In polling mode the reply before the loop is empty, which a query with
      a prefix never accepts: a successful poll has read at least once. */
  lemma PollOutcome(w: Wire, query: string)
    requires query != []
    ensures var res := Poll(w, query);
      var k := |w.replies| - |res.1.replies|;
      && 0 <= k <= |w.replies| && res.1.replies == w.replies[k..]
      && |res.1.sent| >= |w.sent| + k
      && res.1.sent == w.sent + Repeat(query, |res.1.sent| - |w.sent|)
      && (forall j :: 0 <= j < k - 1 ==> Rejected(w.replies[j], query))
      && (|| res.0 == ErrReceive
          || (k >= 1 && w.replies[k - 1].Received? && Accepts(w.replies[k - 1].text, query)
              && res.0 == Split(w.replies[k - 1].text)))
  {
    PollShape(w, query);
    PollResult(w, query);
  }

  /** The replies and the log a poll leaves behind. */
  lemma PollShape(w: Wire, query: string)
    ensures var res := Poll(w, query);
      var k := |w.replies| - |res.1.replies|;
      && 0 <= k <= |w.replies| && res.1.replies == w.replies[k..]
      && |res.1.sent| >= |w.sent| + k
      && res.1.sent == w.sent + Repeat(query, |res.1.sent| - |w.sent|)
      && (forall j :: 0 <= j < k - 1 ==> Rejected(w.replies[j], query))
  {
    PollFromShape(w, "", query);
  }

  /** The replies and the log the loop leaves behind, from any reply. */
  lemma PollFromShape(w: Wire, resp: string, query: string)
    ensures var res := PollFrom(w, resp, query);
      var k := |w.replies| - |res.1.replies|;
      && 0 <= k <= |w.replies| && res.1.replies == w.replies[k..]
      && |res.1.sent| >= |w.sent| + k
      && res.1.sent == w.sent + Repeat(query, |res.1.sent| - |w.sent|)
      && (forall j :: 0 <= j < k - 1 ==> Rejected(w.replies[j], query))
  {
    PollFromConsumes(w, resp, query);
    PollFromSends(w, resp, query);
    PollFromRejects(w, resp, query);
  }

  /** A reported line out, with the reply script left at rest: the receive
      error, or the split of the last reply read, which the loop accepted. */
  predicate ReportsLastRead(w: Wire, rest: seq<Chunk>, out: string, query: string)
  {
    var k := |w.replies| - |rest|;
    || out == ErrReceive
    || (1 <= k <= |w.replies| && w.replies[k - 1].Received? && Accepts(w.replies[k - 1].text, query)
        && out == Split(w.replies[k - 1].text))
  }

  /** What a poll returns: the receive error, or the split of the last reply
      read, which the loop accepted. */
  lemma PollResult(w: Wire, query: string)
    requires query != []
    ensures ReportsLastRead(w, Poll(w, query).1.replies, Poll(w, query).0, query)
  {
    assert !Accepts("", query);
    var raw := PollFrom(w, "", query);
    PollFromStarted(w, "", query);
    var out := if raw.0.None? then ErrReceive else Split(raw.0.value);
    assert Poll(w, query) == (out, raw.1);
  }

  /** A loop that starts from a rejected reply ends in a failure or with
      the split of the last reply it read. */
  lemma PollFromStarted(w: Wire, resp: string, query: string)
    requires !Accepts(resp, query)
    ensures var res := PollFrom(w, resp, query);
      ReportsLastRead(w, res.1.replies, if res.0.None? then ErrReceive else Split(res.0.value), query)
  {
    PollFromOutcome(w, resp, query);
    var res := PollFrom(w, resp, query);
    EndedByReports(w, res.1.replies, resp, res.0, query);
  }

  /** A loop that did not start from an accepted reply and ended as
      EndedBy says reports as ReportsLastRead says. */
  lemma EndedByReports(w: Wire, rest: seq<Chunk>, resp: string, out: Option<string>, query: string)
    requires !Accepts(resp, query)
    requires EndedBy(w.replies, rest, resp, out, query)
    ensures ReportsLastRead(w, rest, if out.None? then ErrReceive else Split(out.value), query)
  {
  }

  /** With sends that succeed, the loop sends the query once per read and
      stops at the first readable reply it accepts, or at the first failed
      read. */
  lemma {:induction false} PollFromScript(w: Wire, resp: string, query: string, j: nat)
    requires SendsSucceed(w)
    requires !Accepts(resp, query)
    requires j <= |w.replies|
    requires forall i :: 0 <= i < j ==> Rejected(w.replies[i], query)
    requires j == |w.replies| || w.replies[j].Broken? || Accepts(w.replies[j].text, query)
    ensures var res := PollFrom(w, resp, query);
      && res.0 == (if j < |w.replies| && w.replies[j].Received?
                   then Some(w.replies[j].text) else None)
      && res.1.replies == (if j < |w.replies| then w.replies[j + 1..] else [])
      && res.1.sent == w.sent + Repeat(query, j + 1)
    decreases j
  {
    if j == 0 {
      PollFromScriptFirst(w, resp, query);
    } else {
      var w2 := Wire(w.replies[1..], if w.sendOk == [] then [] else w.sendOk[1..], w.sent + [query]);
      var next := w.replies[0].text;
      PollFromStep(w, resp, query);
      assert SendsSucceed(w2);
      forall i | 0 <= i < j - 1
        ensures Rejected(w2.replies[i], query)
      {
        assert w2.replies[i] == w.replies[i + 1];
      }
      PollFromScript(w2, next, query, j - 1);
      if j < |w.replies| {
        assert w2.replies[j - 1] == w.replies[j];
        assert w2.replies[j..] == w.replies[j + 1..];
      }
      RepeatCons(w.sent, query, j);
    }
  }

  /** The last turn of a scripted loop: the send succeeds and the reply
      read is accepted or unreadable. */
  lemma PollFromScriptFirst(w: Wire, resp: string, query: string)
    requires SendsSucceed(w)
    requires !Accepts(resp, query)
    requires |w.replies| == 0 || w.replies[0].Broken? || Accepts(w.replies[0].text, query)
    ensures var res := PollFrom(w, resp, query);
      && res.0 == (if 0 < |w.replies| && w.replies[0].Received? then Some(w.replies[0].text) else None)
      && res.1.replies == (if 0 < |w.replies| then w.replies[1..] else [])
      && res.1.sent == w.sent + Repeat(query, 1)
  {
    var (ok, w1) := SendStep(w, query);
    assert ok && w1.sent == w.sent + [query];
    var (got, w2) := RecvStep(w1);
    if got.Some? {
      assert Accepts(got.value, query);
    }
    assert w.sent + [query] == w.sent + Repeat(query, 1);
  }

  /** The same, from the start of a poll: the split of the first accepted
      reply, or the receive error at the first failed read. */
  lemma PollScript(w: Wire, query: string, j: nat)
    requires query != []
    requires SendsSucceed(w)
    requires j <= |w.replies|
    requires forall i :: 0 <= i < j ==> Rejected(w.replies[i], query)
    requires j == |w.replies| || w.replies[j].Broken? || Accepts(w.replies[j].text, query)
    ensures var res := Poll(w, query);
      && res.0 == (if j < |w.replies| && w.replies[j].Received?
                   then Split(w.replies[j].text) else ErrReceive)
      && res.1.replies == (if j < |w.replies| then w.replies[j + 1..] else [])
      && res.1.sent == w.sent + Repeat(query, j + 1)
  {
    assert !Accepts("", query);
    PollFromScript(w, "", query, j);
  }

  /** A reply that starts with the query's two letters and is not the
      volume-limit advisory ends the poll. */
  lemma AcceptsReply(text: string, query: string)
    requires |text| >= 3 && |query| >= 2 && text[0] == query[0] && text[1] == query[1]
    requires text[0] != 'M' || text[1] != 'V' || text[2] != 'M'
    ensures Accepts(text, query)
  {
    assert Prefix(text, 5)[2] == text[2];
  }

  /** With no send failures scripted, a first reply the poll accepts ends
      it after one query. */
  lemma PollFirstReply(w: Wire, query: string, text: string)
    requires query != [] && w.sendOk == []
    requires w.replies != [] && w.replies[0] == Received(text) && Accepts(text, query)
    ensures Poll(w, query) == (Split(text), Wire(w.replies[1..], [], w.sent + [query]))
  {
    PollScript(w, query, 0);
    PollFromSendOk(w, "", query);
    assert Repeat(query, 1) == [query];
  }

  /** A send that fails ends the poll with the receive error before any
      read. */
  lemma PollSendFails(w: Wire, query: string)
    requires query != []
    requires w.sendOk != [] && !w.sendOk[0]
    ensures Poll(w, query).0 == ErrReceive
    ensures Poll(w, query).1.replies == w.replies
    ensures Poll(w, query).1.sent == w.sent
  {
    assert !Accepts("", query);
  }

  /** A send that fails after j rejected replies ends the loop with a
      failure: the first j sends succeed, the j-th reply read is the last
      one consumed, and the query went out j times. */
  lemma {:induction false} PollFromFailsAt(w: Wire, resp: string, query: string, j: nat)
    requires !Accepts(resp, query)
    requires j < |w.sendOk| && !w.sendOk[j]
    requires forall i :: 0 <= i < j ==> w.sendOk[i]
    requires j <= |w.replies|
    requires forall i :: 0 <= i < j ==> Rejected(w.replies[i], query)
    ensures var res := PollFrom(w, resp, query);
      && res.0 == None
      && res.1.replies == w.replies[j..]
      && res.1.sent == w.sent + Repeat(query, j)
    decreases j
  {
    if j > 0 {
      var w2 := Wire(w.replies[1..], w.sendOk[1..], w.sent + [query]);
      var next := w.replies[0].text;
      PollFromStep(w, resp, query);
      forall i | 0 <= i < j - 1
        ensures Rejected(w2.replies[i], query)
      {
        assert w2.replies[i] == w.replies[i + 1];
      }
      PollFromFailsAt(w2, next, query, j - 1);
      assert w2.replies[j - 1..] == w.replies[j..];
      RepeatCons(w.sent, query, j - 1);
    } else {
      assert w.sent + Repeat(query, 0) == w.sent;
    }
  }

  /** The same from the start of a poll: a send that fails after j rejected
      replies gives the receive error. */
  lemma PollFailsAt(w: Wire, query: string, j: nat)
    requires query != []
    requires j < |w.sendOk| && !w.sendOk[j]
    requires forall i :: 0 <= i < j ==> w.sendOk[i]
    requires j <= |w.replies|
    requires forall i :: 0 <= i < j ==> Rejected(w.replies[i], query)
    ensures Poll(w, query).0 == ErrReceive
    ensures Poll(w, query).1.replies == w.replies[j..]
    ensures Poll(w, query).1.sent == w.sent + Repeat(query, j)
  {
    assert !Accepts("", query);
    PollFromFailsAt(w, "", query, j);
  }

  /** The loop tests the raw reply, not its split: an input-category query whose
      reply carries a trailing power code returns that power code. */
  lemma PollForeignPrefix(w: Wire)
    requires w.sendOk == [] && w.replies != [] && w.replies[0] == Received("SIXYZ\rPWON")
    ensures Poll(w, "SI?").0 == "PWON"
    ensures Prefix(Poll(w, "SI?").0, 2) != Prefix("SI?", 2)
  {
    ForeignReply();
    PollFirstReply(w, "SI?", "SIXYZ\rPWON");
  }

  lemma ForeignReply()
    ensures Accepts("SIXYZ\rPWON", "SI?") && Split("SIXYZ\rPWON") == "PWON"
    ensures Prefix("PWON", 2) != Prefix("SI?", 2)
  {
    ForeignAccepted();
    SplitForeignCode();
    OtherPrefix();
  }

  lemma OtherPrefix()
    ensures Prefix("PWON", 2) != Prefix("SI?", 2)
  {
    assert Prefix("PWON", 2)[0] == 'P';
  }

  lemma ForeignAccepted()
    ensures Accepts("SIXYZ\rPWON", "SI?")
  {
    AcceptsReply("SIXYZ\rPWON", "SI?");
  }

  /** A raw reply the loop accepts never splits to the volume-limit
      advisory: a line that is not a known code begins the raw reply, and
      the loop rejects a raw reply that begins with "MVMAX". */
  lemma AcceptedNotAdvisory(r: string, query: string)
    requires Accepts(r, query)
    ensures Prefix(Split(r), 5) != "MVMAX"
  {
    var f := Split(r);
    SplitLeads(r);
    if f in Codes.Values {
      CodeValuesNotAdvisory(f);
    } else {
      assert |f| >= 5 ==> Prefix(f, 5) == Prefix(r, 5);
    }
  }

  /** A poll never reports the volume-limit advisory. */
  lemma PollNeverAdvisory(w: Wire, query: string)
    requires query != []
    ensures Prefix(Poll(w, query).0, 5) != "MVMAX"
  {
    PollResult(w, query);
    var res := Poll(w, query);
    if res.0 == ErrReceive {
      assert Prefix(ErrReceive, 5)[0] == 'E';
    } else {
      var k := |w.replies| - |res.1.replies|;
      AcceptedNotAdvisory(w.replies[k - 1].text, query);
    }
  }

  /** A raw reply the loop accepts, for a query that begins with two
      letters, splits to a known code or to a line with the query's
      prefix. */
  lemma AcceptedKeepsPrefix(r: string, query: string)
    requires Accepts(r, query)
    requires |query| >= 2 && query[0] != CR && query[1] != CR && !IsSpace(query[1])
    ensures Split(r) in Codes.Values || Prefix(Split(r), 2) == Prefix(query, 2)
  {
    assert |r| >= 2 && r[0] == query[0] && r[1] == query[1] by {
      assert Prefix(r, 2) == Prefix(query, 2);
    }
    SplitKeepsLead(r, 2);
  }

  /** A category's poll reports the receive error, a known code, or a line
      that carries the query's two-letter prefix: a line loses the prefix
      only by being a known code picked out of a later fragment. */
  lemma PollPrefix(w: Wire, c: Category)
    ensures var out := Poll(w, StatusQuery(c)).0;
      out == ErrReceive || out in Codes.Values || Prefix(out, 2) == Prefix(StatusQuery(c), 2)
  {
    var q := StatusQuery(c);
    QueryLetters(q);
    PollKeepsPrefix(w, q);
  }

  /** The same for any query that begins with two letters. */
  lemma PollKeepsPrefix(w: Wire, query: string)
    requires |query| >= 2 && query[0] != CR && query[1] != CR && !IsSpace(query[1])
    ensures var out := Poll(w, query).0;
      out == ErrReceive || out in Codes.Values || Prefix(out, 2) == Prefix(query, 2)
  {
    PollResult(w, query);
    var res := Poll(w, query);
    if res.0 != ErrReceive {
      var k := |w.replies| - |res.1.replies|;
      AcceptedKeepsPrefix(w.replies[k - 1].text, query);
    }
  }
}

=== FILE: protocol.dfy ===
/** The constant tables of the Denon controller: the command vocabulary,
    the status query of each category, the display names of inputs and
    sound modes, the output labels and the four error messages. */
module Protocol {
  import opened Text

  /** The five command categories the controller accepts. */
  datatype Category = Power | Volume | Mute | Source | Mode

  // Sentinel actions: they select behaviour and are never put on the wire.
  const StatusAction: string := "status"
  const ToggleAction: string := "toggle"

  // The wire codes the toggle resolver flips between.
  const PowerOnCode: string := "PWON"
  const PowerOffCode: string := "PWSTANDBY"
  const MuteOnCode: string := "MUON"
  const MuteOffCode: string := "MUOFF"

  /** Action name to wire code. */
  const Codes: map<string, string> := map[
    "status" := StatusAction,
    "toggle" := ToggleAction,
    "on" := PowerOnCode,
    "off" := PowerOffCode,
    "up" := "MVUP",
    "down" := "MVDOWN",
    "mute" := MuteOnCode,
    "unmute" := MuteOffCode,
    "bluetooth" := "SIBT",
    "tuner" := "SITUNER",
    "aux" := "SIAUX1",
    "iradio" := "SIIRADIO",
    "mplayer" := "SIMPLAY",
    "game" := "SIGAME",
    "dvd" := "SIDVD",
    "bluray" := "SIBD",
    "favorites" := "SIFAVORITES",
    "sirius" := "SISIRIUSXM",
    "pandora" := "SIPANDORA",
    "ipod" := "SIUSB/IPOD",
    "dolby" := "MSDOLBY DIGITAL",
    "stereo" := "MSSTEREO",
    "mstereo" := "MSMCH STEREO",
    "direct" := "MSDIRECT",
    "rock" := "MSROCK ARENA",
    "jazz" := "MSJAZZ CLUB"]

  /** Category to status query. */
  const StatusCodes: map<Category, string> := map[
    Power := "PW?",
    Volume := "MV?",
    Mute := "MU?",
    Source := "SI?",
    Mode := "MS?"]

  /** Input code (reply without its two-letter prefix) to display name. */
  const SourceNames: map<string, string> := map[
    "BT" := "Bluetooth",
    "TUNER" := "Tuner",
    "AUX1" := "Aux",
    "IRADIO" := "Internet Radio",
    "MPLAY" := "Media Player",
    "GAME" := "Game",
    "DVD" := "DVD",
    "BD" := "BluRay",
    "FAVORITES" := "Favorites",
    "SIRIUSXM" := "Sirius XM",
    "USB/IPOD" := "iPod"]

  /** Sound-mode code (reply without its prefix) to display name. */
  const ModeNames: map<string, string> := map[
    "DOLBY SURROUND" := "Dolby",
    "STEREO" := "Stereo",
    "MCH STEREO" := "MStereo",
    "DIRECT" := "Direct",
    "ROCK ARENA" := "Rock",
    "JAZZ CLUB" := "Jazz"]

  /** Category to output label. */
  const Labels: map<Category, string> := map[
    Power := "Power State:",
    Volume := "Volume Level:",
    Mute := "Mute State:",
    Source := "Source Input:",
    Mode := "Sound Mode:"]

  const ErrArguments: string := "Erro ao analisar argumentos"
  const ErrConnect: string := "Erro ao conectar ao receptor"
  const ErrReceive: string := "Erro ao receber status"
  const ErrSend: string := "Erro ao enviar comando"

  /** Error number to message. */
  const Errors: map<int, string> := map[
    1 := ErrArguments,
    2 := ErrConnect,
    3 := ErrReceive,
    4 := ErrSend]

  /** The values of StatusCodes, written out. */
  const StatusQueries: set<string> := {"PW?", "MV?", "MU?", "SI?", "MS?"}

  /** The status query of a category: a two-letter prefix and '?'. */
  function StatusQuery(c: Category): (q: string)
    ensures q in StatusQueries
    ensures |q| == 3 && q[2] == '?'
    ensures c == Power <==> q == "PW?"
    ensures c == Mute <==> q == "MU?"
  {
    CategoryKeys(c);
    StatusCodes[c]
  }

  /** The output label of a category. */
  function Label(c: Category): (l: string)
    ensures l in Labels.Values
  {
    CategoryKeys(c);
    Labels[c]
  }

  /** Every category has a status query and a label. */
  lemma CategoryKeys(c: Category)
    ensures c in StatusCodes && c in Labels
  {
    match c
    case Power =>
    case Volume =>
    case Mute =>
    case Source =>
    case Mode =>
  }

  /** The values of Codes, written out. */
  lemma CodeValuesListed()
    ensures Codes.Values == CodeValues
  {
    CodeValuesWithin();
    CodeValuesReached();
  }

  lemma CodeValuesWithin()
    ensures Codes.Values <= CodeValues
  {
    forall v | v in Codes.Values
      ensures v in CodeValues
    {
      var k :| k in Codes && Codes[k] == v;
    }
  }

  lemma CodeValuesReached()
    ensures CodeValues <= Codes.Values
  {
    SentinelCodesReached();
    PowerMuteVolumeCodesReached();
    SourceCodesReached();
    ModeCodesReached();
  }

  lemma SentinelCodesReached()
    ensures SentinelCodes <= Codes.Values
  {
    assert Codes["status"] in Codes.Values;
    assert Codes["toggle"] in Codes.Values;
  }

  lemma PowerMuteVolumeCodesReached()
    ensures PowerMuteVolumeCodes <= Codes.Values
  {
    PowerMuteCodesReached();
    VolumeCodesReached();
  }

  lemma PowerMuteCodesReached()
    ensures {PowerOnCode, PowerOffCode, MuteOnCode, MuteOffCode} <= Codes.Values
  {
    assert Codes["on"] in Codes.Values;
    assert Codes["off"] in Codes.Values;
    assert Codes["mute"] in Codes.Values;
    assert Codes["unmute"] in Codes.Values;
  }

  lemma VolumeCodesReached()
    ensures {"MVUP", "MVDOWN"} <= Codes.Values
  {
    assert Codes["up"] in Codes.Values;
    assert Codes["down"] in Codes.Values;
  }


  lemma SourceCodesReached()
    ensures SourceCodes <= Codes.Values
  {
    FirstSourceCodesReached();
    LastSourceCodesReached();
  }

  lemma FirstSourceCodesReached()
    ensures {"SIBT", "SITUNER", "SIAUX1", "SIIRADIO", "SIMPLAY", "SIGAME"} <= Codes.Values
  {
    assert Codes["bluetooth"] in Codes.Values;
    assert Codes["tuner"] in Codes.Values;
    assert Codes["aux"] in Codes.Values;
    assert Codes["iradio"] in Codes.Values;
    assert Codes["mplayer"] in Codes.Values;
    assert Codes["game"] in Codes.Values;
  }

  lemma LastSourceCodesReached()
    ensures {"SIDVD", "SIBD", "SIFAVORITES", "SISIRIUSXM", "SIPANDORA", "SIUSB/IPOD"} <= Codes.Values
  {
    assert Codes["dvd"] in Codes.Values;
    assert Codes["bluray"] in Codes.Values;
    assert Codes["favorites"] in Codes.Values;
    assert Codes["sirius"] in Codes.Values;
    assert Codes["pandora"] in Codes.Values;
    assert Codes["ipod"] in Codes.Values;
  }



  lemma ModeCodesReached()
    ensures ModeCodes <= Codes.Values
  {
    assert Codes["dolby"] in Codes.Values;
    assert Codes["stereo"] in Codes.Values;
    assert Codes["mstereo"] in Codes.Values;
    assert Codes["direct"] in Codes.Values;
    assert Codes["rock"] in Codes.Values;
    assert Codes["jazz"] in Codes.Values;
  }


  /** The values of Codes, by the category they command. */
  const CodeValues: set<string> := SentinelCodes + PowerMuteVolumeCodes + SourceCodes + ModeCodes
  const SentinelCodes: set<string> := {"status", "toggle"}
  const PowerMuteVolumeCodes: set<string> := {"PWON", "PWSTANDBY", "MVUP", "MVDOWN", "MUON", "MUOFF"}
  const SourceCodes: set<string> := {
    "SIBT", "SITUNER", "SIAUX1", "SIIRADIO", "SIMPLAY", "SIGAME", "SIDVD", "SIBD",
    "SIFAVORITES", "SISIRIUSXM", "SIPANDORA", "SIUSB/IPOD"}
  const ModeCodes: set<string> := {
    "MSDOLBY DIGITAL", "MSSTEREO", "MSMCH STEREO", "MSDIRECT", "MSROCK ARENA", "MSJAZZ CLUB"}



  /** No known code holds a carriage return or ends in whitespace. */
  lemma CodeValuesClean()
    ensures forall v :: v in Codes.Values ==> Clean(v)
  {
    CodeValuesListed();
    SentinelPowerMuteVolumeClean();
    SourceCodesClean();
    ModeCodesClean();
  }

  lemma SentinelPowerMuteVolumeClean()
    ensures forall v :: v in SentinelCodes + PowerMuteVolumeCodes ==> Clean(v)
  {
    assert forall v :: v in SentinelCodes ==> Clean(v);
    assert forall v :: v in PowerMuteVolumeCodes ==> Clean(v);
  }

  lemma ModeCodesClean()
    ensures forall v :: v in ModeCodes ==> Clean(v)
  {
  }

  lemma SourceCodesClean()
    ensures forall v :: v in SourceCodes ==> Clean(v)
  {
    assert forall v :: v in {"SIBT", "SITUNER", "SIAUX1", "SIIRADIO", "SIMPLAY", "SIGAME"} ==> Clean(v);
    assert forall v :: v in {"SIDVD", "SIBD", "SIFAVORITES", "SISIRIUSXM", "SIPANDORA", "SIUSB/IPOD"} ==> Clean(v);
  }

  /** A non-empty string without carriage returns and without trailing
      whitespace. */
  predicate Clean(v: string)
  {
    CR !in v && |v| > 0 && !IsSpace(v[|v| - 1])
  }

  /** The codes the toggle resolver uses are table entries. */
  lemma ToggleCodesKnown()
    ensures PowerOnCode in Codes.Values && PowerOffCode in Codes.Values
    ensures MuteOnCode in Codes.Values && MuteOffCode in Codes.Values
  {
    PowerMuteVolumeCodesReached();
  }

  /** The action names the toggle resolver looks up. */
  lemma ToggleCodeLookups()
    ensures "on" in Codes && Codes["on"] == PowerOnCode
    ensures "off" in Codes && Codes["off"] == PowerOffCode
    ensures "mute" in Codes && Codes["mute"] == MuteOnCode
    ensures "unmute" in Codes && Codes["unmute"] == MuteOffCode
  {
  }

  /** A string outside each group of codes is not a known code. */
  lemma NotACode(s: string)
    requires s !in SentinelCodes && s !in PowerMuteVolumeCodes
    requires s !in SourceCodes && s !in ModeCodes
    ensures s !in Codes.Values
  {
    CodeValuesListed();
  }

  /** The four error messages, which are the only error sentinels. */
  lemma ErrorValuesListed()
    ensures Errors.Values == {ErrArguments, ErrConnect, ErrReceive, ErrSend}
  {
    forall v | v in Errors.Values
      ensures v in {ErrArguments, ErrConnect, ErrReceive, ErrSend}
    {
      var k :| k in Errors && Errors[k] == v;
    }
    assert Errors[1] in Errors.Values;
    assert Errors[2] in Errors.Values;
    assert Errors[3] in Errors.Values;
    assert Errors[4] in Errors.Values;
  }

  /** Every error message starts with "Erro". */
  lemma NotAnError(s: string)
    requires |s| >= 3 && s[2] != 'r'
    ensures s !in Errors.Values
  {
    ErrorValuesListed();
  }

  /** The status queries, written out. */
  lemma StatusQueriesListed()
    ensures StatusCodes.Values == StatusQueries
  {
    forall v | v in StatusCodes.Values
      ensures v in StatusQueries
    {
      var k :| k in StatusCodes && StatusCodes[k] == v;
    }
    assert StatusCodes[Power] in StatusCodes.Values;
    assert StatusCodes[Volume] in StatusCodes.Values;
    assert StatusCodes[Mute] in StatusCodes.Values;
    assert StatusCodes[Source] in StatusCodes.Values;
    assert StatusCodes[Mode] in StatusCodes.Values;
  }

  /** Every status query ends in '?'. */
  lemma QueriesEndInMark(q: string)
    requires q in StatusQueries
    ensures |q| == 3 && q[2] == '?'
  {
  }

  /** Every status query begins with two capital letters. */
  lemma QueryLetters(q: string)
    requires q in StatusQueries
    ensures |q| == 3 && 'A' <= q[0] <= 'Z' && 'A' <= q[1] <= 'Z'
  {
  }

  /** No table value is a status query: every value has at least four
      characters, every query three. */
  lemma CodeValuesNotQueries(v: string)
    requires v in Codes.Values
    ensures v !in StatusQueries
  {
    CodeValuesListed();
    CodeValuesLong();
    if v in StatusQueries {
      QueriesEndInMark(v);
    }
  }

  lemma CodeValuesLong()
    ensures forall v :: v in CodeValues ==> |v| >= 4
  {
    SentinelPowerMuteVolumeLong();
    SourceCodesLong();
    ModeCodesLong();
  }

  lemma SentinelPowerMuteVolumeLong()
    ensures forall v :: v in SentinelCodes + PowerMuteVolumeCodes ==> |v| >= 4
  {
    assert forall v :: v in SentinelCodes ==> |v| >= 4;
    assert forall v :: v in PowerMuteVolumeCodes ==> |v| >= 4;
  }

  lemma SourceCodesLong()
    ensures forall v :: v in SourceCodes ==> |v| >= 4
  {
    assert forall v :: v in {"SIBT", "SITUNER", "SIAUX1", "SIIRADIO", "SIMPLAY", "SIGAME"} ==> |v| >= 4;
    assert forall v :: v in {"SIDVD", "SIBD", "SIFAVORITES", "SISIRIUSXM", "SIPANDORA", "SIUSB/IPOD"} ==> |v| >= 4;
  }

  lemma ModeCodesLong()
    ensures forall v :: v in ModeCodes ==> |v| >= 4
  {
  }

  /** Whether s begins with "MVM", as the volume-limit advisory "MVMAX"
      does. */
  predicate StartsMvm(s: string)
  {
    |s| >= 3 && s[0] == 'M' && s[1] == 'V' && s[2] == 'M'
  }

  /** No table value begins with the volume-limit advisory "MVMAX". */
  lemma CodeValuesNotAdvisory(v: string)
    requires v in Codes.Values
    ensures Prefix(v, 5) != "MVMAX"
  {
    CodeValuesListed();
    CodeValuesOffMvm();
    assert !StartsMvm(v);
    NotAdvisory(v);
  }

  /** Text that does not begin with "MVM" does not begin with "MVMAX". */
  lemma NotAdvisory(s: string)
    requires !StartsMvm(s)
    ensures Prefix(s, 5) != "MVMAX"
  {
    var p := Prefix(s, 5);
    assert |p| == 5 ==> p[0] == s[0] && p[1] == s[1] && p[2] == s[2];
  }

  lemma CodeValuesOffMvm()
    ensures forall v :: v in CodeValues ==> !StartsMvm(v)
  {
    SentinelPowerMuteVolumeOffMvm();
    SourceCodesOffMvm();
    ModeCodesOffMvm();
  }

  lemma SentinelPowerMuteVolumeOffMvm()
    ensures forall v :: v in SentinelCodes + PowerMuteVolumeCodes ==> !StartsMvm(v)
  {
    assert forall v :: v in SentinelCodes ==> !StartsMvm(v);
    assert forall v :: v in PowerMuteVolumeCodes ==> !StartsMvm(v);
  }

  lemma SourceCodesOffMvm()
    ensures forall v :: v in SourceCodes ==> !StartsMvm(v)
  {
    assert forall v :: v in {"SIBT", "SITUNER", "SIAUX1", "SIIRADIO", "SIMPLAY", "SIGAME"} ==> !StartsMvm(v);
    assert forall v :: v in {"SIDVD", "SIBD", "SIFAVORITES", "SISIRIUSXM", "SIPANDORA", "SIUSB/IPOD"} ==> !StartsMvm(v);
  }

  lemma ModeCodesOffMvm()
    ensures forall v :: v in ModeCodes ==> !StartsMvm(v)
  {
  }
}

=== FILE: scenarios.dfy ===
/** End-to-end runs of the controller against scripted receivers: the
    command line's category and action, the replies the receiver sends,
    the lines that go out and the line printed. Each run starts from any
    earlier send log and with no send failures scripted. */
module Scenarios {
  import opened Text
  import opened Protocol
  import opened Splitter
  import opened Transport
  import opened Poller
  import opened Dispatcher
  import opened Vocabulary
  import opened Formatter

  /** "volume 35" on a receiver that is on: the volume and power queries,
      the level, and the volume query again; the new level is printed. */
  lemma VolumeSetTo35(w: Wire, address: string)
    requires w.sendOk == [] && w.replies == [Received("MV40\r"), Received("PWON\r"), Received("MV35\r")]
    ensures Execute(w, Volume, "35")
         == (Some(("Volume Level:", "MV35")), Wire([], [], w.sent + ["MV?", "PW?", "MV35", "MV?"]))
    ensures ParseResponse(address, Volume, "Volume Level:", "MV35") == Line("[" + address + "] " + "Volume Level:" + " " + "35")
  {
    VolumeCode35();
    VolumeQuery();
    VolumeDispatch35(w);
    VolumeShown35(address);
  }

  lemma VolumeCode35()
    ensures CommandCode(Volume, "35") == Some("MV35")
  {
    Level35();
    VolumeLevelCode(35);
    assert "MV" + "35" == "MV35";
  }

  lemma Level35()
    ensures NatToString(35) == "35"
  {
    assert ParseNat("35") == 35 by {
      assert "35"[..1] == "3";
    }
    NatToStringParseNat("35");
  }

  lemma VolumeQuery()
    ensures StatusQuery(Volume) == "MV?" && Label(Volume) == "Volume Level:"
  {
    CategoryKeys(Volume);
  }

  lemma VolumeDispatch35(w: Wire)
    requires w.sendOk == [] && w.replies == [Received("MV40\r"), Received("PWON\r"), Received("MV35\r")]
    ensures Dispatch(w, "MV35", "MV?") == ("MV35", Wire([], [], w.sent + ["MV?", "PW?", "MV35", "MV?"]))
  {
    MV40Reply();
    PowerOnReply();
    MV35Reply();
    VolumeRunFacts();
    DispatchScriptOn(w, "MV35", "MV?", "MV40\r", "PWON\r", "MV35\r");
  }

  lemma MV40Reply()
    ensures Accepts("MV40\r", "MV?") && Split("MV40\r") == "MV40"
  {
    ReplyLine("MV40\r", "MV40", "MV?");
  }

  lemma MV35Reply()
    ensures Accepts("MV35\r", "MV?") && Split("MV35\r") == "MV35"
  {
    ReplyLine("MV35\r", "MV35", "MV?");
  }

  lemma PowerOnReply()
    ensures Accepts("PWON\r", "PW?") && Split("PWON\r") == "PWON"
  {
    ReplyLine("PWON\r", "PWON", "PW?");
  }

  lemma StandbyReply()
    ensures Accepts("PWSTANDBY\r", "PW?") && Split("PWSTANDBY\r") == "PWSTANDBY"
  {
    ReplyLine("PWSTANDBY\r", "PWSTANDBY", "PW?");
  }

  lemma MuteOffReply()
    ensures Accepts("MUOFF\r", "MU?") && Split("MUOFF\r") == "MUOFF"
  {
    ReplyLine("MUOFF\r", "MUOFF", "MU?");
  }

  /** How the dispatcher treats the first replies of the three runs. */
  lemma VolumeRunFacts()
    ensures !IsPowerQuery("MV?") && !ShortCircuits("MV35", "MV40")
    ensures "PWON" == PowerOnCode && Resolve("MV35", "MV40", "MV?") == "MV35"
  {
    assert Prefix("MV?", 2)[0] == 'M';
  }

  lemma PowerRunFacts()
    ensures IsPowerQuery("PW?") && !ShortCircuits("toggle", "PWON")
    ensures Resolve("toggle", "PWON", "PW?") == "PWSTANDBY"
  {
  }

  lemma MuteRunFacts()
    ensures !IsPowerQuery("MU?") && !ShortCircuits("toggle", "MUOFF")
    ensures "PWSTANDBY" != PowerOnCode
  {
    assert Prefix("MU?", 2)[0] == 'M';
  }

  /** A clean reply line t, ended by a carriage return, answering a query
      with the same two-letter prefix. */
  lemma ReplyLine(t: string, s: string, query: string)
    requires t == s + [CR] && Clean(s)
    requires |s| >= 3 && |query| >= 2 && s[0] == query[0] && s[1] == query[1]
    requires s[0] != 'M' || s[1] != 'V' || s[2] != 'M'
    ensures Accepts(t, query) && Split(t) == s
  {
    AcceptsReply(t, query);
    SplitLine(s);
  }

  lemma VolumeShown35(address: string)
    ensures ParseResponse(address, Volume, "Volume Level:", "MV35") == Line("[" + address + "] " + "Volume Level:" + " " + "35")
  {
    NotAnError("MV35");
    assert Drop("MV35", 2) == "35";
    VolumeWhole("35");
    NatToStringParseNat("35");
    ShownAs(address, Volume, "Volume Level:", "MV35", "35");
  }

  /** "power toggle" on a receiver that is on: the standby code is sent,
      and the confirmation read back is printed under the power label. */
  lemma PowerToggleFromOn(w: Wire)
    requires w.sendOk == [] && w.replies == [Received("PWON\r"), Received("PWSTANDBY\r")]
    ensures Execute(w, Power, "toggle")
         == (Some(("Power State:", "PWSTANDBY")), Wire([], [], w.sent + ["PW?", "PWSTANDBY", "PW?"]))
  {
    PowerToggleCode();
    PowerToggleDispatch(w);
  }

  /** The standby reply is printed under the power label. */
  lemma PowerStandbyShown(address: string)
    ensures ParseResponse(address, Power, "Power State:", "PWSTANDBY") == Line("[" + address + "] " + "Power State:" + " " + "STANDBY")
  {
    StandbyRelabelled(address, Power, "Power State:", "PWSTANDBY");
    PowerToggleCode();
  }

  lemma PowerToggleCode()
    ensures CommandCode(Power, "toggle") == Some("toggle")
    ensures StatusQuery(Power) == "PW?" && Label(Power) == "Power State:"
  {
    CategoryKeys(Power);
  }

  lemma PowerToggleDispatch(w: Wire)
    requires w.sendOk == [] && w.replies == [Received("PWON\r"), Received("PWSTANDBY\r")]
    ensures Dispatch(w, "toggle", "PW?") == ("PWSTANDBY", Wire([], [], w.sent + ["PW?", "PWSTANDBY", "PW?"]))
  {
    PowerOnReply();
    StandbyReply();
    PowerRunFacts();
    DispatchScriptPower(w, "toggle", "PW?", "PWON\r", "PWSTANDBY\r");
  }

  /** "mute toggle" on a receiver in standby: only the mute and power
      queries go out, and the power reply is the result, printed as a
      power state. */
  lemma MuteToggleInStandby(w: Wire)
    requires w.sendOk == [] && w.replies == [Received("MUOFF\r"), Received("PWSTANDBY\r")]
    ensures Execute(w, Mute, "toggle")
         == (Some(("Mute State:", "PWSTANDBY")), Wire([], [], w.sent + ["MU?", "PW?"]))
  {
    MuteToggleCode();
    MuteDispatchBlocked(w);
  }

  /** A standby reply to a mute command is printed as a power state. */
  lemma MuteStandbyShown(address: string)
    ensures ParseResponse(address, Mute, "Mute State:", "PWSTANDBY") == Line("[" + address + "] " + "Power State:" + " " + "STANDBY")
  {
    StandbyRelabelled(address, Mute, "Mute State:", "PWSTANDBY");
    PowerToggleCode();
  }

  lemma MuteToggleCode()
    ensures CommandCode(Mute, "toggle") == Some("toggle")
    ensures StatusQuery(Mute) == "MU?" && Label(Mute) == "Mute State:"
  {
    CategoryKeys(Mute);
  }

  lemma MuteDispatchBlocked(w: Wire)
    requires w.sendOk == [] && w.replies == [Received("MUOFF\r"), Received("PWSTANDBY\r")]
    ensures Dispatch(w, "toggle", "MU?") == ("PWSTANDBY", Wire([], [], w.sent + ["MU?", "PW?"]))
  {
    MuteOffReply();
    StandbyReply();
    MuteRunFacts();
    DispatchScriptBlocked(w, "toggle", "MU?", "MUOFF\r", "PWSTANDBY\r");
  }
}

=== FILE: splitter.dfy ===
/** The response splitter: one read from the receiver may hold several
    carriage-return separated status lines; the splitter picks the one
    the controller reports. */
module Splitter {
  import opened Text
  import opened Protocol

  /** The fragments of a raw reply: trailing whitespace removed, then split
      on carriage returns. */
  function Fragments(r: string): (x: seq<string>)
    ensures |x| >= 1
    ensures forall i :: 0 <= i < |x| ==> CR !in x[i]
  {
    SplitOn(RStrip(r), CR)
  }

  /** Index of the first fragment that is one of the known wire codes, or
      |x| when there is none. */
  function FirstKnown(x: seq<string>): (i: nat)
    ensures i <= |x|
    ensures forall j :: 0 <= j < i ==> x[j] !in Codes.Values
    ensures i < |x| ==> x[i] in Codes.Values
  {
    if x == [] then 0
    else if x[0] in Codes.Values then 0
    else 1 + FirstKnown(x[1..])
  }

  /** The fragment the controller reports: with several fragments, the
      first that is a known code, otherwise the first fragment. */
  function Split(r: string): string
  {
    var x := Fragments(r);
    if |x| > 1 && FirstKnown(x) < |x| then x[FirstKnown(x)] else x[0]
  }

  /** The reported line is one of the fragments, so it holds no carriage
      return. */
  lemma SplitIsFragment(r: string)
    ensures Split(r) in Fragments(r)
    ensures CR !in Split(r)
  {
  }

  /** Split selects exactly as remoto.py's search does: a single fragment
      is returned as it is; among several, the first known code wins and
      the first fragment is the fallback. */
  lemma SplitSelects(r: string)
    ensures var x := Fragments(r);
      && (|x| == 1 ==> Split(r) == x[0])
      && (|x| > 1 && (forall j :: 0 <= j < |x| ==> x[j] !in Codes.Values) ==> Split(r) == x[0])
      && (forall i :: (0 <= i < |x| && 1 < |x| && x[i] in Codes.Values
            && (forall j :: 0 <= j < i ==> x[j] !in Codes.Values)) ==> Split(r) == x[i])
  {
    var x := Fragments(r);
    var k := FirstKnown(x);
    forall i | 0 <= i < |x| && 1 < |x| && x[i] in Codes.Values
        && (forall j :: 0 <= j < i ==> x[j] !in Codes.Values)
      ensures Split(r) == x[i]
    {
      assert k == i;
    }
  }

  /** A string without carriage returns or trailing whitespace is left as
      it is. */
  lemma SplitKeepsClean(s: string)
    requires CR !in s
    requires s == [] || !IsSpace(s[|s| - 1])
    ensures Split(s) == s
  {
    assert RStrip(s) == s;
  }

  /** A reply that is one fragment is a fixed point: splitting its result
      again changes nothing. So is a reply whose result is a known code. */
  lemma SplitFixedPoint(r: string)
    requires |Fragments(r)| == 1 || Split(r) in Codes.Values
    ensures Split(Split(r)) == Split(r)
  {
    var f := Split(r);
    if |Fragments(r)| == 1 {
      var t := RStrip(r);
      assert Join(Fragments(r), CR) == t;
      assert f == t;
    } else {
      CodeValuesClean();
    }
    SplitKeepsClean(f);
  }

  /** Splitting a result again changes it exactly when the result ends in
      whitespace: the second split strips that whitespace. */
  lemma SplitTwiceIff(r: string)
    ensures var f := Split(r);
      Split(f) == f <==> (f == [] || !IsSpace(f[|f| - 1]))
  {
    var f := Split(r);
    SplitIsFragment(r);
    if f == [] || !IsSpace(f[|f| - 1]) {
      SplitKeepsClean(f);
    } else {
      SplitStripsTrailing(f);
    }
  }

  /** Text without carriage returns that ends in whitespace is shortened
      by a split. */
  lemma SplitStripsTrailing(f: string)
    requires CR !in f && f != [] && IsSpace(f[|f| - 1])
    ensures Split(f) == RStrip(f) && |Split(f)| < |f|
  {
    var t := RStrip(f);
    assert t == RStrip(f[..|f| - 1]);
    assert CR !in t by {
      assert t == f[..|t|];
    }
    assert Fragments(f) == [t];
  }

  /** A reported line that is not a known code is the first fragment, and
      so it begins the raw reply. */
  lemma SplitLeads(r: string)
    ensures var f := Split(r);
      f in Codes.Values || (f == Fragments(r)[0] && |f| <= |r| && f == r[..|f|])
  {
    var x := Fragments(r);
    var t := RStrip(r);
    JoinHead(x, CR);
    assert x[0] == t[..|x[0]|];
    assert t == r[..|t|];
  }

  /** When the first n characters of the raw reply hold no carriage return
      and the n-th is not whitespace, a reported line that is not a known
      code begins with those n characters. */
  lemma SplitKeepsLead(r: string, n: nat)
    requires n <= |r|
    requires forall i :: 0 <= i < n ==> r[i] != CR
    requires n == 0 || !IsSpace(r[n - 1])
    ensures Split(r) in Codes.Values || Prefix(Split(r), n) == r[..n]
  {
    var x := Fragments(r);
    var t := RStrip(r);
    assert |t| >= n;
    assert t == r[..|t|];
    JoinHead(x, CR);
    if |x| > 1 {
      assert t[|x[0]|] == CR;
    }
    SplitLeads(r);
    if Split(r) !in Codes.Values {
      assert Split(r) == x[0] && x[0] == r[..|x[0]|];
    }
  }

  /** A clean line ended by a carriage return is reported without it. */
  lemma SplitLine(s: string)
    requires Clean(s)
    ensures Split(s + [CR]) == s
  {
    assert IsSpace(CR);
    assert (s + [CR])[..|s|] == s;
    assert RStrip(s + [CR]) == RStrip(s);
    assert RStrip(s) == s;
    SplitKeepsClean(s);
  }

  /** A reply whose stripped text is two clean lines: the second is
      reported only when it is a known code and the first is not. */
  lemma SplitTwoLines(r: string, a: string, b: string)
    requires RStrip(r) == a + [CR] + b
    requires CR !in a && CR !in b
    requires a !in Codes.Values
    ensures Split(r) == if b in Codes.Values then b else a
  {
    assert Join([a, b], CR) == a + [CR] + b;
    SplitOnJoin([a, b], CR);
    assert [a, b][1..] == [b];
    assert [b][1..] == [];
  }

  /** Idempotence does not hold in general: a first fragment that ends in a
      blank is returned with the blank, and splitting again strips it. */
  lemma SplitNotIdempotent()
    ensures Split("MV45 \rXX") == "MV45 "
    ensures Split(Split("MV45 \rXX")) == "MV45"
  {
    SplitKeepsBlank();
    SplitStripsBlank();
  }

  lemma SplitKeepsBlank()
    ensures Split("MV45 \rXX") == "MV45 "
  {
    NotACode("MV45 ");
    NotACode("XX");
    assert RStrip("MV45 \rXX") == "MV45 " + [CR] + "XX";
    SplitTwoLines("MV45 \rXX", "MV45 ", "XX");
  }

  lemma SplitStripsBlank()
    ensures Split("MV45 ") == "MV45"
  {
    assert RStrip("MV45 ") == "MV45";
    SplitKeepsClean("MV45");
  }

  /** A volume-limit advisory followed by a volume reading: neither is a
      known code, so the advisory, being first, is what Split returns. */
  lemma SplitAdvisoryFallback()
    ensures Split("MVMAX 90\rMV45") == "MVMAX 90"
  {
    NotACode("MVMAX 90");
    NotACode("MV45");
    assert RStrip("MVMAX 90\rMV45") == "MVMAX 90" + [CR] + "MV45";
    SplitTwoLines("MVMAX 90\rMV45", "MVMAX 90", "MV45");
  }

  /** A reply led by an unknown input name and followed by a power code
      reports the power code. */
  lemma SplitForeignCode()
    ensures Split("SIXYZ\rPWON") == "PWON"
  {
    NotACode("SIXYZ");
    ToggleCodesKnown();
    assert RStrip("SIXYZ\rPWON") == "SIXYZ" + [CR] + "PWON";
    SplitTwoLines("SIXYZ\rPWON", "SIXYZ", "PWON");
  }

  /** A toggle confirmation behind an unrelated line is found. */
  lemma SplitFindsConfirmation()
    ensures Split("MVMAX 90\rMUON\r") == "MUON"
  {
    NotACode("MVMAX 90");
    ToggleCodesKnown();
    assert RStrip("MVMAX 90\rMUON\r") == "MVMAX 90" + [CR] + "MUON";
    SplitTwoLines("MVMAX 90\rMUON\r", "MVMAX 90", "MUON");
  }
}

=== FILE: text.dfy ===
/** Python string semantics that the protocol engine relies on: slicing that
    never fails on short strings, rstrip/strip, split on one character,
    isdigit/int/str on decimal numbers, lower/capitalize. Strings are
    already-decoded sequences of characters. */
module Text {

  datatype Option<+T> = None | Some(value: T)

  const CR: char := '\r'

  /** s[:n] in Python: at most n characters, never an error. */
  function Prefix(s: string, n: nat): (p: string)
    ensures |p| == if |s| < n then |s| else n
    ensures p == s[..|p|]
  {
    if |s| < n then s else s[..n]
  }

  /** s[n:] in Python: empty when s is shorter than n. */
  function Drop(s: string, n: nat): (d: string)
    ensures |d| == if |s| < n then 0 else |s| - n
    ensures Prefix(s, n) + d == s
  {
    if |s| < n then [] else s[n..]
  }

  /** str.isspace for one character: the ASCII whitespace and separators
      and the Unicode space characters Python strips by default. */
  predicate IsSpace(c: char)
  {
    var k := c as int;
    (9 <= k <= 13) || (28 <= k <= 32) || k == 0x85 || k == 0xA0 || k == 0x1680
    || (0x2000 <= k <= 0x200A) || k == 0x2028 || k == 0x2029 || k == 0x202F
    || k == 0x205F || k == 0x3000
  }

  /** str.rstrip() with no argument. */
  function RStrip(s: string): (r: string)
    ensures |r| <= |s| && r == s[..|r|]
    ensures r == [] || !IsSpace(r[|r| - 1])
    ensures forall i :: |r| <= i < |s| ==> IsSpace(s[i])
  {
    if |s| > 0 && IsSpace(s[|s| - 1]) then RStrip(s[..|s| - 1]) else s
  }

  /** str.lstrip() with no argument. */
  function LStrip(s: string): (r: string)
    ensures |r| <= |s| && r == s[|s| - |r|..]
    ensures r == [] || !IsSpace(r[0])
    ensures forall i :: 0 <= i < |s| - |r| ==> IsSpace(s[i])
  {
    if |s| > 0 && IsSpace(s[0]) then LStrip(s[1..]) else s
  }

  /** str.strip() with no argument. */
  function Strip(s: string): string
  {
    LStrip(RStrip(s))
  }

  /** Position of the first occurrence of c in s. */
  function IndexOf(s: string, c: char): (i: nat)
    requires c in s
    ensures i < |s| && s[i] == c && c !in s[..i]
  {
    if s[0] == c then 0 else 1 + IndexOf(s[1..], c)
  }

  /** sep.join(parts) in Python. */
  function Join(parts: seq<string>, sep: char): string
  {
    if parts == [] then []
    else if |parts| == 1 then parts[0]
    else parts[0] + [sep] + Join(parts[1..], sep)
  }

  /** s.split(sep) in Python for a one-character separator: always at
      least one part, no part holds the separator, and joining the parts
      with the separator gives back s. */
  function SplitOn(s: string, sep: char): (parts: seq<string>)
    ensures |parts| >= 1
    ensures forall i :: 0 <= i < |parts| ==> sep !in parts[i]
    ensures Join(parts, sep) == s
    decreases |s|
  {
    if sep !in s then [s]
    else
      var i := IndexOf(s, sep);
      var rest := SplitOn(s[i + 1..], sep);
      assert ([s[..i]] + rest)[1..] == rest;
      assert s == s[..i] + [sep] + s[i + 1..];
      [s[..i]] + rest
  }

  /** The first part begins the joined text; with more parts, the
      separator follows it. */
  lemma JoinHead(parts: seq<string>, sep: char)
    requires |parts| >= 1
    ensures var s := Join(parts, sep);
      && |parts[0]| <= |s| && s[..|parts[0]|] == parts[0]
      && (|parts| > 1 ==> |parts[0]| < |s| && s[|parts[0]|] == sep)
  {
    if |parts| > 1 {
      var s := Join(parts, sep);
      assert s == parts[0] + [sep] + Join(parts[1..], sep);
    }
  }

  /** Splitting a joined list gives the list back when no part holds the
      separator. */
  lemma {:induction false} SplitOnJoin(parts: seq<string>, sep: char)
    requires |parts| >= 1
    requires forall i :: 0 <= i < |parts| ==> sep !in parts[i]
    ensures SplitOn(Join(parts, sep), sep) == parts
  {
    if |parts| > 1 {
      var p0, rest := parts[0], parts[1..];
      var s := Join(parts, sep);
      assert s == p0 + [sep] + Join(rest, sep);
      assert s[|p0|] == sep;
      assert sep in s;
      var i := IndexOf(s, sep);
      assert i == |p0|;
      assert s[..i] == p0;
      assert s[i + 1..] == Join(rest, sep);
      SplitOnJoin(rest, sep);
      assert [p0] + rest == parts;
    }
  }

  predicate IsDigit(c: char)
  {
    '0' <= c <= '9'
  }

  predicate AllDigits(s: string)
  {
    forall i :: 0 <= i < |s| ==> IsDigit(s[i])
  }

  /** str.isdigit for ASCII text: non-empty and every character a digit. */
  predicate IsDigits(s: string)
  {
    |s| > 0 && AllDigits(s)
  }

  function DigitValue(c: char): (d: nat)
    requires IsDigit(c)
    ensures d < 10
  {
    c as int - '0' as int
  }

  function DigitChar(d: nat): (c: char)
    requires d < 10
    ensures IsDigit(c) && DigitValue(c) == d
  {
    ('0' as int + d) as char
  }

  /** The value of a string of decimal digits (the empty string is 0). */
  function ParseNat(s: string): nat
    requires AllDigits(s)
  {
    if s == [] then 0 else 10 * ParseNat(s[..|s| - 1]) + DigitValue(s[|s| - 1])
  }

  /** str(n) for a natural number: its digits, which read back as n. */
  function NatToString(n: nat): (s: string)
    ensures IsDigits(s)
    ensures ParseNat(s) == n
    ensures n < 10 <==> |s| == 1
    decreases n
  {
    if n < 10 then [DigitChar(n)]
    else
      var s := NatToString(n / 10) + [DigitChar(n % 10)];
      assert s[..|s| - 1] == NatToString(n / 10);
      s
  }

  /** Decimal text without a leading zero is what str() gives for its
      value. */
  lemma {:induction false} NatToStringParseNat(s: string)
    requires IsDigits(s) && (s[0] != '0' || |s| == 1)
    ensures NatToString(ParseNat(s)) == s
    ensures |s| > 1 ==> ParseNat(s) >= 10
  {
    var init := s[..|s| - 1];
    if |s| > 1 {
      assert init[0] == s[0];
      NatToStringParseNat(init);
      if |init| == 1 {
        assert ParseNat(init[..0]) == 0;
        assert ParseNat(init) == DigitValue(init[0]) >= 1;
      }
      var d := DigitValue(s[|s| - 1]);
      DecimalShift(ParseNat(init), d);
      assert DigitChar(d) == s[|s| - 1];
      assert s == init + [s[|s| - 1]];
    } else {
      assert ParseNat(s[..0]) == 0;
    }
  }

  /** Appending a digit to a number's decimal text: the quotient by ten is
      the number, the remainder the digit. */
  lemma DecimalShift(q: nat, d: nat)
    requires d < 10
    ensures (10 * q + d) / 10 == q && (10 * q + d) % 10 == d
  {
  }

  /** str(i) for any integer. */
  function IntToString(i: int): string
  {
    if i < 0 then "-" + NatToString(-i) else NatToString(i)
  }

  lemma StripDigits(s: string)
    ensures IsDigits(s) ==> Strip(s) == s
  {
    if IsDigits(s) {
      assert !IsSpace(s[|s| - 1]);
      assert RStrip(s) == s;
      assert !IsSpace(s[0]);
    }
  }

  /** The value of stripped text: an optional sign and at least one digit;
      anything else is not a number (None). */
  function SignedValue(t: string): Option<int>
  {
    if |t| > 0 && (t[0] == '+' || t[0] == '-') && IsDigits(t[1..]) then
      var magnitude: int := ParseNat(t[1..]);
      Some(if t[0] == '-' then -magnitude else magnitude)
    else if IsDigits(t) then Some(ParseNat(t))
    else None
  }

  /** int(s) in Python for base-10 text; None where it raises. Plain digit
      strings, the common case, are read directly (PyIntStrips shows this
      agrees with stripping first). */
  function PyInt(s: string): Option<int>
  {
    if IsDigits(s) then Some(ParseNat(s)) else SignedValue(Strip(s))
  }

  /** int() ignores surrounding whitespace and then reads an optional sign
      and digits; a digit string is its decimal value. */
  lemma PyIntStrips(s: string)
    ensures PyInt(s) == SignedValue(Strip(s))
    ensures IsDigits(s) ==> PyInt(s) == Some(ParseNat(s))
  {
    StripDigits(s);
  }

  /** Text that starts with a letter is not a number. */
  lemma PyIntRejectsLetter(s: string)
    requires |s| > 0 && ('a' <= s[0] <= 'z' || 'A' <= s[0] <= 'Z')
    ensures PyInt(s) == None
  {
    assert !IsSpace(s[0]) && !IsDigit(s[0]);
    var r := RStrip(s);
    assert |r| > 0 && r[0] == s[0];
    assert Strip(s) == r;
  }

  function LowerChar(c: char): char
  {
    if 'A' <= c <= 'Z' then (c as int + 32) as char else c
  }

  function UpperChar(c: char): char
  {
    if 'a' <= c <= 'z' then (c as int - 32) as char else c
  }

  /** str.lower() on ASCII letters. */
  function Lower(s: string): (r: string)
    ensures |r| == |s|
    ensures forall i :: 0 <= i < |s| ==> r[i] == LowerChar(s[i])
  {
    seq(|s|, i requires 0 <= i < |s| => LowerChar(s[i]))
  }

  /** str.capitalize() on ASCII letters: the first character upper-cased,
      every other one lower-cased. */
  function Capitalize(s: string): (r: string)
    ensures |r| == |s|
    ensures |s| > 0 ==> r[0] == UpperChar(s[0])
    ensures forall i :: 1 <= i < |s| ==> r[i] == LowerChar(s[i])
  {
    if s == [] then [] else [UpperChar(s[0])] + Lower(s[1..])
  }
}

=== FILE: transport.dfy ===
/** A scripted stand-in for the receiver's TCP socket. Each read takes the
    next scripted reply (a chunk of text or a failure); a read past the end
    of the script fails, as the socket does when its five-second timeout
    runs out. Each send takes the next scripted outcome (true when the
    bytes go out); once that script is used up, every send succeeds. The
    lines that went out are logged; on the wire each is followed by a
    carriage return. */
module Transport {
  import opened Text

  /** One scripted read: the text received, or a failure. */
  datatype Chunk = Received(text: string) | Broken

  /** The whole observable state of the link. */
  datatype Wire = Wire(replies: seq<Chunk>, sendOk: seq<bool>, sent: seq<string>)

  /** Sending one line: it is logged exactly when the send succeeds, and
      the reply script is untouched. */
  function SendStep(w: Wire, line: string): (res: (bool, Wire))
    ensures res.1.replies == w.replies
    ensures res.1.sent == if res.0 then w.sent + [line] else w.sent
    ensures res.0 <==> (w.sendOk == [] || w.sendOk[0])
    ensures res.1.sendOk == if w.sendOk == [] then [] else w.sendOk[1..]
  {
    if w.sendOk == [] then (true, w.(sent := w.sent + [line]))
    else
      var ok := w.sendOk[0];
      (ok, w.(sendOk := w.sendOk[1..], sent := if ok then w.sent + [line] else w.sent))
  }

  /** Reading once: succeeds with the next scripted text, fails on a
      scripted failure or an exhausted script; never writes to the log. */
  function RecvStep(w: Wire): (res: (Option<string>, Wire))
    ensures res.1.sent == w.sent && res.1.sendOk == w.sendOk
    ensures res.0.Some? <==> (w.replies != [] && w.replies[0].Received?)
    ensures res.0.Some? ==> res.0.value == w.replies[0].text
    ensures res.1.replies == if w.replies == [] then [] else w.replies[1..]
  {
    if w.replies == [] then (None, w)
    else
      var rest := w.replies[1..];
      match w.replies[0]
      case Received(text) => (Some(text), w.(replies := rest))
      case Broken => (None, w.(replies := rest))
  }

  /** The socket: its state is a Wire, advanced by SendStep and RecvStep. */
  class Socket {
    var replies: seq<Chunk>
    var sendOk: seq<bool>
    var sent: seq<string>

    function State(): Wire
      reads this
    {
      Wire(replies, sendOk, sent)
    }

    constructor (replies: seq<Chunk>, sendOk: seq<bool>)
      ensures State() == Wire(replies, sendOk, [])
    {
      this.replies := replies;
      this.sendOk := sendOk;
      this.sent := [];
    }

    method Send(line: string) returns (ok: bool)
      modifies this
      ensures (ok, State()) == SendStep(old(State()), line)
    {
      ok := sendOk == [] || sendOk[0];
      if sendOk != [] {
        sendOk := sendOk[1..];
      }
      if ok {
        sent := sent + [line];
      }
    }

    method Recv() returns (r: Option<string>)
      modifies this
      ensures (r, State()) == RecvStep(old(State()))
    {
      if replies == [] {
        r := None;
      } else {
        r := if replies[0].Received? then Some(replies[0].text) else None;
        replies := replies[1..];
      }
    }
  }
}

=== FILE: vocabulary.dfy ===
/** The command vocabulary: which actions each category accepts on the
    command line, how an action becomes a wire code, and parse_command,
    which hands that code to the dispatcher. */
module Vocabulary {
  import opened Text
  import opened Protocol
  import opened Transport
  import opened Dispatcher

  /** The actions the command line accepts for each category (already
      lower-cased by the argument parser). */
  predicate ValidAction(cat: Category, action: string)
  {
    match cat
    case Power => action in {"status", "on", "off", "toggle"}
    case Volume =>
      || action in {"status", "up", "down"}
      || (IsDigits(action) && ParseNat(action) <= 90 && NatToString(ParseNat(action)) == action)
    case Mute => action in {"status", "toggle"}
    case Source => action in {
      "status", "bluetooth", "tuner", "aux", "iradio", "mplayer", "game", "dvd",
      "bluray", "favorites", "siriusxm", "pandora", "ipod"}
    case Mode => action in {"status", "dolby", "stereo", "mstereo", "direct", "rock", "jazz"}
  }

  /** '{:02}'.format(n): at least two characters, zero-padded after the
      sign; a number of two or more digits is written as it is. */
  function Pad2(n: int): (s: string)
    ensures n >= 0 ==> IsDigits(s) && ParseNat(s) == n
    ensures 0 <= n < 100 ==> |s| == 2
    ensures n >= 10 ==> s == NatToString(n)
    ensures n < 0 ==> s == "-" + NatToString(-n)
  {
    if 0 <= n < 10 then
      var s := ['0', DigitChar(n)];
      assert s[..1] == ['0'] && ['0'][..0] == [];
      s
    else if n < 0 then IntToString(n)
    else
      assert n / 10 < 10 ==> |NatToString(n / 10)| == 1;
      NatToString(n)
  }

  /** The wire code of an action: its table entry when it has one,
      otherwise the category's two-letter prefix and the action read as a
      number; None when that reading raises. */
  function CommandCode(cat: Category, action: string): (r: Option<string>)
    ensures action in Codes ==> r == Some(Codes[action])
    ensures action !in Codes ==> (r.Some? <==> PyInt(action).Some?)
  {
    if action in Codes then Some(Codes[action])
    else match PyInt(action)
      case None => None
      case Some(n) => Some(Prefix(StatusQuery(cat), 2) + Pad2(n))
  }

  /** parse_command as a function of the link state: the label and the
      dispatcher's reply, or None when the action is neither a table entry
      nor a number (remoto.py raises before anything is sent). */
  function Execute(w: Wire, cat: Category, action: string): (res: (Option<(string, string)>, Wire))
    ensures res.0.None? ==> res.1 == w
    ensures res.0.Some? ==> res.0.value.0 == Label(cat)
  {
    match CommandCode(cat, action)
    case None => (None, w)
    case Some(code) =>
      var (r, w1) := Dispatch(w, code, StatusQuery(cat));
      (Some((Label(cat), r)), w1)
  }

  method ParseCommand(sock: Socket, cat: Category, action: string)
    returns (out: Option<(string, string)>)
    modifies sock
    ensures (out, sock.State()) == Execute(old(sock.State()), cat, action)
  {
    CategoryKeys(cat);
    assert StatusCodes[cat] == StatusQuery(cat) && Labels[cat] == Label(cat);
    if action !in Codes {
      var n := PyInt(action);
      if n.None? {
        assert CommandCode(cat, action) == None;
        return None;
      }
      var code := StatusCodes[cat][..2] + Pad2(n.value);
      assert CommandCode(cat, action) == Some(code);
      var r := SendCommand(sock, code, StatusCodes[cat]);
      return Some((Labels[cat], r));
    }
    assert CommandCode(cat, action) == Some(Codes[action]);
    var r := SendCommand(sock, Codes[action], StatusCodes[cat]);
    out := Some((Labels[cat], r));
  }

  /** No action name in the table starts with a digit. */
  lemma CodeKeysNotNumeric(s: string)
    requires |s| > 0 && IsDigit(s[0])
    ensures s !in Codes
  {
  }

  /** A volume level on the command line becomes "MV" and the level in two
      digits, which read back as the level. */
  lemma VolumeLevelCode(n: nat)
    requires n <= 90
    ensures ValidAction(Volume, NatToString(n))
    ensures CommandCode(Volume, NatToString(n)) == Some("MV" + Pad2(n))
    ensures |Pad2(n)| == 2 && ParseNat(Pad2(n)) == n
  {
    var a := NatToString(n);
    CodeKeysNotNumeric(a);
    assert PyInt(a) == Some(n as int);
    assert Prefix(StatusQuery(Volume), 2) == "MV";
  }

  /** Every accepted action of the power, mute and mode categories is a
      table entry. */
  lemma TableActionsCoded(cat: Category, action: string)
    requires cat == Power || cat == Mute || cat == Mode
    requires ValidAction(cat, action)
    ensures CommandCode(cat, action).Some? && action in Codes
  {
  }

  /** Every accepted input action but "siriusxm" is a table entry; the
      table spells that one "sirius", so "siriusxm" is read as a number and
      raises. */
  lemma SourceActionsCoded(action: string)
    requires ValidAction(Source, action)
    ensures CommandCode(Source, action).Some? <==> action != "siriusxm"
    ensures action != "siriusxm" ==> action in Codes
  {
    if action == "siriusxm" {
      SiriusXmRaises();
    }
  }

  lemma SiriusXmRaises()
    ensures CommandCode(Source, "siriusxm") == None
  {
    SiriusXmNotAKey();
    SiriusXmNotANumber();
  }

  lemma SiriusXmNotAKey()
    ensures "siriusxm" !in Codes
  {
  }

  lemma SiriusXmNotANumber()
    ensures PyInt("siriusxm") == None
  {
    PyIntRejectsLetter("siriusxm");
  }

  /** Every accepted volume action has a code. */
  lemma VolumeActionsCoded(action: string)
    requires ValidAction(Volume, action)
    ensures CommandCode(Volume, action).Some?
  {
    if action !in {"status", "up", "down"} {
      VolumeLevelCode(ParseNat(action));
    }
  }

  /** The status action asks the dispatcher to send nothing but the status
      query: the result is the first status reply. */
  lemma StatusSendsNothing(w: Wire, cat: Category)
    ensures var res := Execute(w, cat, StatusAction);
      && res.0 == Some((Label(cat), Poller.Poll(w, StatusQuery(cat)).0))
      && res.1 == Poller.Poll(w, StatusQuery(cat)).1
      && Imperatives(res.1.sent) == Imperatives(w.sent)
  {
    var q := StatusQuery(cat);
    StatusCoded(cat);
    var d := Dispatch(w, StatusAction, q);
    assert Execute(w, cat, StatusAction) == (Some((Label(cat), d.0)), d.1);
    DispatchShortCircuit(w, StatusAction, q);
  }

  lemma StatusCoded(cat: Category)
    ensures CommandCode(cat, StatusAction) == Some(StatusAction)
  {
    assert Codes[StatusAction] == StatusAction;
  }

  /** Single-digit levels are zero-padded: "7" becomes "MV07". */
  lemma VolumeCodeSeven()
    ensures CommandCode(Volume, "7") == Some("MV07")
  {
    assert DigitChar(7) == '7';
    assert NatToString(7) == "7";
    VolumeLevelCode(7);
    assert CommandCode(Volume, "7") == Some("MV" + Pad2(7));
    assert Pad2(7) == ['0', DigitChar(7)];
    assert Pad2(7) == "07";
    assert "MV" + "07" == "MV07";
  }

  /** The code of any action, from the table or read as a number, is never
      a status query, so sending it is an imperative. */
  lemma CommandCodeNotQuery(cat: Category, action: string)
    ensures CommandCode(cat, action).Some? ==> CommandCode(cat, action).value !in StatusQueries
  {
    if action in Codes {
      assert Codes[action] in Codes.Values;
      CodeValuesNotQueries(Codes[action]);
    } else if PyInt(action).Some? {
      NumericCodeNotQuery(Prefix(StatusQuery(cat), 2), PyInt(action).value);
    }
  }

  /** A code built from a prefix and a padded number ends in a digit, so
      it is not a status query. */
  lemma NumericCodeNotQuery(prefix: string, n: int)
    ensures prefix + Pad2(n) !in StatusQueries
  {
    var p := Pad2(n);
    PadEndsInDigit(n);
    var code := prefix + p;
    assert code[|code| - 1] == p[|p| - 1];
    if code in StatusQueries {
      QueriesEndInMark(code);
    }
  }

  /** '{:02}' always ends in a digit. */
  lemma PadEndsInDigit(n: int)
    ensures |Pad2(n)| > 0 && IsDigit(Pad2(n)[|Pad2(n)| - 1])
  {
    var p := Pad2(n);
    if n < 0 {
      var d := NatToString(-n);
      assert p == "-" + d;
      assert p[|p| - 1] == d[|d| - 1];
    }
  }

  /** Resolving a command that is not a status query gives a command that
      is not one either. */
  lemma ResolveNotQuery(cmd: string, resp: string, query: string)
    requires cmd !in StatusQueries
    ensures Resolve(cmd, resp, query) !in StatusQueries
  {
  }

  /** Whatever the action and the replies, parse_command sends at most one
      imperative, and it is the action's code resolved against the first
      status reply. */
  lemma ExecuteAtMostOnce(w: Wire, cat: Category, action: string)
    ensures var res := Execute(w, cat, action);
      var q := StatusQuery(cat);
      || Imperatives(res.1.sent) == Imperatives(w.sent)
      || (CommandCode(cat, action).Some?
          && Imperatives(res.1.sent)
             == Imperatives(w.sent) + [Resolve(CommandCode(cat, action).value, Poller.Poll(w, q).0, q)])
  {
    var q := StatusQuery(cat);
    var code := CommandCode(cat, action);
    if code.Some? {
      CommandCodeNotQuery(cat, action);
      ResolveNotQuery(code.value, Poller.Poll(w, q).0, q);
      DispatchAtMostOnce(w, code.value, q);
      var d := Dispatch(w, code.value, q);
      assert Execute(w, cat, action) == (Some((Label(cat), d.0)), d.1);
    }
  }
}
